=== FILE: README.md ===
# Record-validation engine, modelled in Dafny

`tests.py` defines a small declarative record engine. A record class lists its
fields as class attributes: `name: str = Field(label=..., precondition=...)`. The
metaclass `RecordMeta` then does four things:

- it collects each class body's `Field` entries into `_fields`;
- it synthesises an `__init__` that
  - merges the field tables and annotation tables of every class along the
    method resolution order (MRO);
  - demands that the argument names equal the field names;
  - checks each argument, in the order the arguments were passed, first against
    its annotated type and then against its precondition;
  - stores the argument under the backing attribute `_name`;
- each `Field` is a data descriptor: reading `obj.name` returns `obj._name`, and
  writing `obj.name` always raises `AttributeError`;
- it synthesises a `__str__` that prints the class name and one labelled block per
  field.

The model is generic in the value type `V` and the type-tag type `T`. Python's
`isinstance` is a parameter `isInstance: (V, T) -> bool`, and `repr` is a
parameter `repr: V -> string`. Dictionaries are association lists with distinct
keys (`Dicts.Dict`), so insertion order is explicit. A class on the MRO is either
a record class, built by `RecordMeta` and so carrying a `_fields` table, or a plain
class such as `object` or a mixin, which has none; `Schema.ClassDef.isRecord` tells
them apart, and `Schema.Lineage` is a class with its MRO. Every Python exception is an
`Err` value of `Errors.Error`, and `Errors.Raised` maps it to the exception class
the source raises: `TypeError`, `KeyError` or `AttributeError`.

Modules:

| module | file | what it holds |
|---|---|---|
| `Wrappers` | `wrappers.dfy` | `Option` and `Result` |
| `Dicts` | `dicts.dfy` | insertion-ordered dictionaries; dict comprehension as a fold of single assignments; the MRO merge `Merge` |
| `Errors` | `errors.dfy` | failure kinds and the exception each raises |
| `Schema` | `schema.dfy` | `Field`, class bodies, record classes and their MRO; `_fields`; the merged field and annotation tables; class attribute lookup |
| `Attributes` | `attributes.dfy` | instances; `getattr`/`setattr`, with the `Field` descriptor's `__get__` and `__set__` |
| `Construction` | `construction.dfy` | the synthesised `__init__` |
| `Rendering` | `rendering.dfy` | the synthesised `__str__` |
| `Examples` | `examples.dfy` | `Person`, `Named`, `Animal`, `Dog` over a small universe of Python values, and the unit tests' expectations |

Three behaviours of the code worth knowing:

- **Name collisions.** The merged tables are dict comprehensions over the MRO,
  most-derived class first, so a later (more ancestral) declaration overwrites an
  earlier one. When a subclass redeclares a field, the ANCESTOR's `Field` and
  annotation win, not the subclass's. The field keeps the position of its
  most-derived declaration. `Examples.RedeclaredFieldKeepsAncestralCheck` shows
  this on a hypothetical `Puppy(Dog)`.
- **Validation order.** Arguments are checked in the order they were passed
  (`kwargs.items()`), not in field-table order. The first failing argument in call
  order is the one reported.
- **Rendering scope.** `__str__` walks `self._fields`. That is the `_fields` of the
  instance's own class, so inherited fields are not shown: `str(mike)` prints only
  `bark`.

All validation failures raise `TypeError`; there are no distinct error classes.

## Model

| member | source | states |
|---|---|---|
| Dicts.FromPairsLastWins | tests.py:36-38 | a dict comprehension maps each key to the value of its LAST pair, and has exactly the keys of the pairs |
| Dicts.FromPairsOrder | tests.py:36-38 | a dict comprehension lists keys in the order of their FIRST occurrence among the pairs |
| Dicts.FromPairsOfDict | tests.py:37 | re-inserting a dictionary's items one by one rebuilds the same dictionary, in the same order |
| Dicts.MergeKeys | tests.py:36-38 | a key is in the merge of a chain of tables iff some table of the chain has it |
| Dicts.MergeLastWins | tests.py:36-38 | a key of the merge takes its value from the last table of the chain that has it |
| Schema.OwnFields | tests.py:30-32 | `_fields` of a class maps a name to a `Field` exactly when the class body binds that name to a `Field`, and to that same `Field` |
| Schema.OwnFieldsOrder | tests.py:30-32 | `_fields` lists its names in the order the class body declares them |
| Schema.MergedFieldsLookup | tests.py:36-38 | a name is in `cls_fields` iff some RECORD class on the MRO declares it as a field (a plain class has no `_fields`, so its `Field`s are ignored); its entry is the declaration of the record class furthest along the MRO |
| Schema.MergedAnnotationsLookup | tests.py:39-41 | a name is in `annotations` iff some class on the MRO annotates it; its type is the one furthest along the MRO |
| Schema.MergedFieldsOrder | tests.py:36-38 | `cls_fields` lists names by their first declaration in the walk over the `_fields` tables of the MRO, most-derived class first, plain classes contributing nothing |
| Schema.LookupIn | tests.py:19-23 | class attribute lookup returns nothing iff no class on the MRO binds the name, and otherwise the binding of the first class that does |
| Schema.DescriptorIsField | tests.py:19-23 | a name that resolves to a `Field` descriptor is in the merged field table when the first class along the MRO that binds it is a record class; one bound by a plain mixin need not be |
| Schema.FieldIsDescriptor | tests.py:19-23 | a name of the merged field table is bound on the class, and resolves to a `Field` descriptor exactly when the first class along the MRO that binds it binds a `Field`; otherwise that first binding is a plain value |
| Attributes.PrivateNameInjective | tests.py:17 | distinct fields have distinct backing names `_name` |
| Attributes.GetAttr | tests.py:19-20 | a failed read raises `AttributeError`; how a read resolves is stated by Attributes.ReadResolution, by Construction.ReadBack for fields, and by the frame clause of Attributes.SetAttrReads for every other name |
| Attributes.ReadResolution | tests.py:19-20 | a read of a `Field` descriptor `n` is a read of its backing name `_n`, and any other name is read as itself; the name read is found in the instance dictionary first and as a plain class attribute otherwise, and the read fails, naming it, iff neither has it |
| Attributes.SetAttr | tests.py:22-23 | a write fails iff the name resolves to a `Field` descriptor, and then raises `AttributeError`; any other write stores the value in the instance dictionary and keeps the class |
| Attributes.SetAttrReads | tests.py:19-23 | a write that succeeds reads back, and leaves the reading of every other name unchanged, except the field whose backing name was written |
| Attributes.BackingAttributeIsWritable | tests.py:19-20 | the lock guards the public name only: writing `_name` directly succeeds and changes what the field reads |
| Construction.Construct | tests.py:43-44 | construction fails with the name-mismatch `TypeError` iff the argument names differ from the field names; a success stores every argument under its backing name |
| Construction.MissingFieldFails | tests.py:43-44 | omitting any field of the merged table, inherited ones included, fails the name check |
| Construction.UnknownNameFails | tests.py:43-44 | passing any name that is not a field fails the name check |
| Construction.CheckArg | tests.py:47-54 | one argument passes iff its name has a field and an annotation, the value is an instance of the annotated type and the precondition, if any, accepts it; a value of the wrong type is a type error whatever the precondition says |
| Construction.CheckArgRaises | tests.py:47-54 | a failed check names the argument, and raises `KeyError` iff the field or annotation lookup failed, `TypeError` otherwise |
| Construction.Bind | tests.py:46-56 | a successful argument loop holds exactly the arguments' slots, and a failing one never reports a name mismatch |
| Construction.BindSucceeds | tests.py:46-56 | the argument loop succeeds iff no remaining argument is in error |
| Construction.BindFirstError | tests.py:46-56 | a failing argument loop fails with the error of the first bad argument in call order |
| Construction.ConstructOutcome | tests.py:46-56 | once the names match, construction succeeds iff no argument is in error, and otherwise reports the first bad argument in call order |
| Construction.ValidArgumentsConstruct | tests.py:46-56 | matching names and no argument in error give an instance holding exactly the supplied values |
| Construction.Slots | tests.py:56 | after every argument is stored, the backing name `_n` of any name `n` reads exactly what was passed for `n`, or nothing if `n` was not passed, and nothing else is stored |
| Construction.IllTypedArgumentFails | tests.py:49-50 | an argument that is not an instance of its annotated type makes construction fail, with a type error on that field whatever its precondition says, when the others are valid |
| Construction.FailedPreconditionFails | tests.py:52-54 | a well-typed argument that its precondition rejects makes construction fail, reporting that field when the others are valid |
| Construction.NoPreconditionSkipsCheck | tests.py:52 | a field without a precondition passes the checks for every well-typed value |
| Construction.ReadBack | tests.py:19-20 | after a successful construction, every field reads back exactly the value supplied for it; a descriptor bound by a plain mixin, which is not a field, was given no value, so its read finds the class's plain `_name` if one is bound and raises `AttributeError` otherwise |
| Construction.FieldsStayReadOnly | tests.py:22-23 | after a successful construction, every write to a field descriptor raises `AttributeError`, and a field of the table still reads its constructed value |
| Rendering.OwnFieldIsDescriptor | tests.py:63-64 | every field of the class's own `_fields` is in the merged field table and is a descriptor of its instances |
| Rendering.Render | tests.py:60-69 | `str` succeeds iff every field of the class's own `_fields` can be read, and then opens with `Name(` on its own line and closes with `)`; otherwise it fails as the first unreadable field does |
| Rendering.BlocksContents | tests.py:63-67 | the field blocks come out iff every read succeeds, and block `i` shows field `i`'s label and the `repr` of the value read for it |
| Rendering.BlocksFailure | tests.py:63-64 | failing blocks fail with the error of the first failed read, in field order |
| Rendering.RenderBlocksOfConstructed | tests.py:63-67 | on a constructed instance, the field blocks show each field's label and the `repr` of the value supplied for it, in order |
| Rendering.RenderOfConstructed | tests.py:60-69 | `str` of a constructed record is `Name(\n`, then one block per field of its own class body, in body order, then `)` |
| Examples.PersonTables | tests.py:82-90 | `Person`'s merged field and annotation tables are exactly `name`, `age`, `income`, in declaration order, with their declared labels, preconditions and types |
| Examples.PersonArgErrors | tests.py:86-90 | for each `Person` field: which values are ill-typed and which fail the precondition |
| Examples.PersonConstruct | tests.py:46-56 | for every `Person(name=.., age=.., income=..)`: the error of the first bad argument in call order, or success with the three backing slots |
| Examples.JamesAt110IsAccepted | tests.py:121 | `Person(name="JAMES", age=110, income=24000.0)` succeeds |
| Examples.AgeOutOfRangeIsRejected | tests.py:122-127 | ages 160 and -1 fail `age`'s precondition, raising `TypeError` |
| Examples.MissingFieldsAreRejected | tests.py:124-125 | `Person(name="JAMES")` fails the name check, raising `TypeError` |
| Examples.StringAgeIsRejected | tests.py:128-129 | `age="150"` is a type error on `age`, raising `TypeError` |
| Examples.UnknownNameIsRejected | tests.py:130-131 | passing `wealth` fails the name check before the ill-typed `age` is examined |
| Examples.JamesProperties | tests.py:133-137 | `james.age` reads 34, and `james.age = 32` raises `AttributeError` |
| Examples.JamesRendering | tests.py:139-151 | `str(james)` is exactly the expected three-block text |
| Examples.DogTables | tests.py:93-114 | `Dog`'s merged tables are `bark`, `habitat`, `weight`, `name` with their declarations and types |
| Examples.DogArgErrors | tests.py:97-114 | for each `Dog` field: which values are ill-typed and which fail the precondition |
| Examples.MikeIsAccepted | tests.py:154 | `Dog(name="mike", habitat="land", weight=50., bark="ARF")` succeeds |
| Examples.MikeWeight | tests.py:155 | `mike.weight` reads the inherited field's value 50.0 |
| Examples.DogNeedsInheritedFields | tests.py:43-44 | a `Dog` given only `bark` fails the name check: inherited fields must be supplied |
| Examples.MikeRendering | tests.py:63-69 | `str(mike)` shows only `bark`, the field `Dog` itself declares |
| Examples.RedeclaredFieldKeepsAncestralCheck | tests.py:36-38 | a subclass that redeclares `weight` without a precondition still gets `Animal`'s field, and a negative weight is still rejected |
| Examples.MixinFieldIsNotConstructed | tests.py:36-38 | a record `Note(Record, Tagged)` whose plain mixin binds `tag = Field(...)` has only `text` as a field, so `Note(text="a")` succeeds, yet `tag` is still a descriptor and reading it raises `AttributeError` |
| Examples.MixinBackingDefault | tests.py:19-20 | when the plain mixin also binds `_tag = "dflt"`, the same `Note(text="a")` succeeds and reading `tag` returns `"dflt"` from the class |

## Left out

- The metaclass plumbing (`RecordMeta.__new__`, `type.__new__`, `__set_name__`) is
  left out. A record class is given directly by its declared bodies and its MRO. The
  MRO is an input: C3 linearisation is not modelled.
- The `_fields`, `__init__` and `__str__` entries that the metaclass adds to each
  namespace are not modelled as class-body bindings, and neither are the attributes
  every Python object inherits (`__class__`, `__dict__`, ...). Field names whose own
  name or backing name collides with one of these are therefore out of scope:
  - a field named `_fields`, `__init__` or `__str__`;
  - a field named `fields`: its value is stored as the instance attribute `_fields`,
    which shadows the class's table, so in Python `str` of such a record fails
    (tests.py:63 calls `.items()` on the stored value) while the model renders it;
  - fields named `_class__` or `_dict__`: storing them writes `__class__` or
    `__dict__`, which Python refuses with a `TypeError` or replaces wholesale,
    while the model stores them like any other slot.
- `isinstance` and `repr` are parameters. In particular, `bool` being a subclass of
  `int` and the `repr` of floats are not modelled; the examples give `repr` only the
  values the expected strings need.
- Floating point is modelled by `real`, and only for the constants the tests use.
- A precondition that raises is modelled as one that returns false, and the model
  reports `PreconditionFailed`, which raises `TypeError`. Python propagates the
  precondition's own exception instead. The two agree on the exception class only
  when that exception is a `TypeError`, as for `0 <= "150"`; a precondition raising
  `ValueError`, say, differs.
- A field named `self` is out of scope. Python's `__init__(self, **kwargs)`
  (tests.py:35) rejects `C(self=1)` with a `TypeError` about multiple values for
  `self`; the model treats `self` like any other field name.
- One `Field` object bound under two names, or shared by two classes, is out of
  scope. `__set_name__` (tests.py:16-17) keeps only the last name it was given, so
  in Python both names read that one backing attribute (tests.py:20), while the
  store (tests.py:56) writes each name's own. The model gives each binding its own
  backing name `_name`.
- A plain class that itself binds a `_fields` attribute is out of scope: the model
  takes the `_fields` of a plain class to be empty, as `getattr(cls, "_fields", {})`
  (tests.py:37) finds for the classes that have none.
- A falsy callable precondition is treated as present, since Python functions are
  always truthy.
- Exception messages are left out; only the exception class is modelled.
- Attributes.GetAttr: a backing name `_name` that is itself a `Field` descriptor on
  the class is modelled for writes (the store fails) but not for reads. Python would
  call that descriptor's `__get__` in turn; the model reads `_name` from the
  instance dictionary, and fails when it is not there.
- Attributes.GetAttr: data descriptors other than `Field`, such as a `property` in
  a record body, are not modelled; every non-`Field` class binding is a plain
  value. Python lets such a descriptor win over the instance dictionary on reads,
  and refuses writes to a setter-less one with `AttributeError`; the model reads
  the instance dictionary first, and Attributes.SetAttr stores the value.
- Positional arguments are left out. `__init__(self, **kwargs)` (tests.py:35)
  rejects `Person("JAMES", 34, 24000.0)` with a `TypeError`; Construction.Construct
  takes keyword arguments only, so such a call has no counterpart in the model.
- Attributes.SetAttr: a direct write `obj._fields = x` is accepted and stored, as
  in Python, but in Python it then shadows the class's table that `__str__` walks
  (tests.py:63), while Rendering.Render keeps using the class's own `_fields`.
- Determinism of rendering is implicit, because every operation is a function.
- The `unittest` runner and `unittest.main()` are left out; the tests are
  restated as the lemmas of `Examples`.

=== FILE: attributes.dfy ===
/**
  Record instances and attribute access on them. An instance holds its class and
  its own attribute dictionary (`__dict__`). A `Field` is a data descriptor: reading
  `obj.name` reads the instance attribute `_name`, and writing `obj.name` always
  raises. Names that are not field descriptors are plain instance attributes.
 */
module Attributes {
  import opened Wrappers
  import opened Dicts
  import opened Schema
  import opened Errors

  datatype Instance<!V, T> = Instance(cls: RecordClass<V, T>, attrs: Dict<V>)

  /** The instance attribute that backs field `n` (`Field.__set_name__`). */
  function PrivateName(n: string): string
  {
    "_" + n
  }

  lemma PrivateNameInjective(a: string, b: string)
    ensures PrivateName(a) == PrivateName(b) <==> a == b
  {
    if PrivateName(a) == PrivateName(b) {
      assert a == PrivateName(a)[1..] && b == PrivateName(b)[1..];
    }
  }

  /**
    `getattr(obj, n)`: a field descriptor reads its backing attribute `_n` with
    `getattr` in turn; any other name reads the instance dictionary, then the class.
    A `Field` is a data descriptor, so it wins over an instance attribute of the
    same name, while an instance attribute wins over a plain class attribute. A
    failed read raises `AttributeError`.
   */
  function GetAttr<V, T>(inst: Instance<V, T>, n: string): (r: Result<V, Error>)
    ensures r.Err? ==> Raised(r.error) == AttributeError
  {
    if IsFieldDescriptor(inst.cls, n) then DictThenClass(inst, PrivateName(n))
    else DictThenClass(inst, n)
  }

  /** Reading `m` from the instance dictionary, or failing that from a plain class attribute. */
  function DictThenClass<V, T>(inst: Instance<V, T>, m: string): Result<V, Error>
  {
    match Get(inst.attrs, m)
    case Some(v) => Ok(v)
    case None =>
      var bound := LookupIn(inst.cls.Mro(), m);
      if bound.Some? && bound.value.PlainAttr? then Ok(bound.value.value) else Err(NoAttribute(m))
  }

  /**
    Where a read finds its value. A field descriptor `n` reads the backing attribute
    `_n`, even when the instance dictionary holds `n` itself. The name read (`n`
    itself, or `_n` for a descriptor) is looked up in the instance dictionary, and
    only when that lacks it as a plain class attribute; the read fails iff neither
    has it.
   */
  lemma ReadResolution<V, T>(inst: Instance<V, T>, n: string)
    ensures IsFieldDescriptor(inst.cls, n) ==> ReadsDictThenClass(inst, PrivateName(n), GetAttr(inst, n))
    ensures !IsFieldDescriptor(inst.cls, n) ==> ReadsDictThenClass(inst, n, GetAttr(inst, n))
  {
    if IsFieldDescriptor(inst.cls, n) {
      DictThenClassReads(inst, PrivateName(n));
    } else {
      DictThenClassReads(inst, n);
      assert LookupIn(inst.cls.Mro(), n).Some? ==> LookupIn(inst.cls.Mro(), n).value.PlainAttr?;
    }
  }

  /** The class binds `m` to a plain value (not a `Field`). */
  ghost predicate PlainBinding<V, T>(c: RecordClass<V, T>, m: string)
  {
    LookupIn(c.Mro(), m).Some? && LookupIn(c.Mro(), m).value.PlainAttr?
  }

  /**
    A read `r` of the name `m` succeeds iff the instance dictionary has `m` or the
    class binds it to a plain value; the instance dictionary comes first, the class
    second, and a failure names `m`.
   */
  ghost predicate ReadsDictThenClass<V, T>(inst: Instance<V, T>, m: string, r: Result<V, Error>)
  {
    && (r.Ok? <==> m in Keys(inst.attrs) || PlainBinding(inst.cls, m))
    && (m in Keys(inst.attrs) ==> r.Ok? && Get(inst.attrs, m) == Some(r.value))
    && (m !in Keys(inst.attrs) && r.Ok? ==> LookupIn(inst.cls.Mro(), m) == Some(PlainAttr(r.value)))
    && (r.Err? ==> r.error == NoAttribute(m))
  }

  lemma DictThenClassReads<V, T>(inst: Instance<V, T>, m: string)
    ensures ReadsDictThenClass(inst, m, DictThenClass(inst, m))
  {
    var bound := LookupIn(inst.cls.Mro(), m);
    var r := DictThenClass(inst, m);
    if m in Keys(inst.attrs) {
      assert r == Ok(Get(inst.attrs, m).value);
    } else if PlainBinding(inst.cls, m) {
      assert r == Ok(bound.value.value);
    } else {
      assert r == Err(NoAttribute(m));
    }
  }

  /**
    `setattr(obj, n, v)`: a field descriptor refuses every write; any other name is
    stored in the instance dictionary, and the class stays the same. A refused write
    returns no new instance, so the stored values stay as they were.
   */
  function SetAttr<V, T>(inst: Instance<V, T>, n: string, v: V): (r: Result<Instance<V, T>, Error>)
    ensures r.Err? <==> IsFieldDescriptor(inst.cls, n)
    ensures r.Err? ==> r.error == ReadOnlyField(n) && Raised(r.error) == AttributeError
    ensures r.Ok? ==> r.value.cls == inst.cls && Get(r.value.attrs, n) == Some(v)
  {
    if IsFieldDescriptor(inst.cls, n) then Err(ReadOnlyField(n))
    else Ok(inst.(attrs := Set(inst.attrs, n, v)))
  }

  /**
    A write that succeeds reads back, and leaves the reading of every other name
    unchanged, except the field whose backing name was written.
   */
  lemma SetAttrReads<V, T>(inst: Instance<V, T>, n: string, v: V)
    requires SetAttr(inst, n, v).Ok?
    ensures GetAttr(SetAttr(inst, n, v).value, n) == Ok(v)
    ensures forall m :: m != n && PrivateName(m) != n ==> GetAttr(SetAttr(inst, n, v).value, m) == GetAttr(inst, m)
  {
  }

  /**
    The lock covers the field's public name only: writing the backing attribute
    `_name` directly (when that name is not itself a field) succeeds and changes
    what the field reads.
   */
  lemma BackingAttributeIsWritable<V, T>(inst: Instance<V, T>, n: string, v: V)
    requires IsFieldDescriptor(inst.cls, n) && !IsFieldDescriptor(inst.cls, PrivateName(n))
    ensures SetAttr(inst, PrivateName(n), v).Ok?
    ensures GetAttr(SetAttr(inst, PrivateName(n), v).value, n) == Ok(v)
  {
    DictThenClassReads(SetAttr(inst, PrivateName(n), v).value, PrivateName(n));
  }
}

=== FILE: construction.dfy ===
/**
  The synthesised `__init__`: the argument names must be exactly the field names
  of the class; then, argument by argument in the order they were passed, the value
  must be an instance of the field's annotated type and satisfy the field's
  precondition, and is then stored under the field's backing name. Any failure
  aborts the construction, so no partly built instance is ever returned.
 */
module Construction {
  import opened Wrappers
  import opened Dicts
  import opened Schema
  import opened Errors
  import opened Attributes

  /** `set(kwargs) == set(cls_fields)`. */
  predicate NamesMatch<V, T>(c: RecordClass<V, T>, kwargs: Dict<V>)
  {
    KeySet(kwargs) == KeySet(MergedFields(c))
  }

  /** A missing precondition passes; a present one must accept the value. */
  predicate PreconditionHolds<V>(p: Option<V -> bool>, v: V)
  {
    p.None? || p.value(v)
  }

  /**
    The checks made on one argument before it is stored. It passes iff the name is
    a field with an annotation, the value is an instance of that type and the
    field's precondition (if any) accepts it. Looking up an unknown field or a
    missing annotation raises `KeyError`; otherwise a failure is a `TypeError`, and
    the type is checked before the precondition.
   */
  function CheckArg<V, T>(c: RecordClass<V, T>, name: string, value: V, isInstance: (V, T) -> bool): (r: Option<Error>)
    ensures r.None? <==>
              && name in Keys(MergedFields(c)) && name in Keys(MergedAnnotations(c))
              && isInstance(value, Get(MergedAnnotations(c), name).value)
              && PreconditionHolds(Get(MergedFields(c), name).value.precondition, value)
    ensures (name in Keys(MergedFields(c)) && name in Keys(MergedAnnotations(c))
             && !isInstance(value, Get(MergedAnnotations(c), name).value)) ==> r == Some(WrongType(name))
  {
    match Get(MergedFields(c), name)
    case None => Some(UnknownField(name))
    case Some(field) =>
      match Get(MergedAnnotations(c), name)
      case None => Some(MissingAnnotation(name))
      case Some(t) =>
        if !isInstance(value, t) then Some(WrongType(name))
        else if !PreconditionHolds(field.precondition, value) then Some(PreconditionFailed(name))
        else None
  }

  /** A failed check names the argument; it raises `KeyError` iff a table lookup failed, and `TypeError` otherwise. */
  lemma CheckArgRaises<V, T>(c: RecordClass<V, T>, name: string, value: V, isInstance: (V, T) -> bool)
    requires CheckArg(c, name, value, isInstance).Some?
    ensures var e := CheckArg(c, name, value, isInstance).value;
            && e in {UnknownField(name), MissingAnnotation(name), WrongType(name), PreconditionFailed(name)}
            && (Raised(e) == KeyError <==> name !in Keys(MergedFields(c)) || name !in Keys(MergedAnnotations(c)))
            && (Raised(e) != KeyError ==> Raised(e) == TypeError)
  {
    var e := CheckArg(c, name, value, isInstance).value;
    if Get(MergedFields(c), name).None? {
      assert e == UnknownField(name) && name !in Keys(MergedFields(c));
    } else if Get(MergedAnnotations(c), name).None? {
      assert e == MissingAnnotation(name) && name !in Keys(MergedAnnotations(c));
    } else {
      assert e == WrongType(name) || e == PreconditionFailed(name);
      assert Raised(e) == TypeError && name in Keys(MergedFields(c)) && name in Keys(MergedAnnotations(c));
    }
  }

  /**
    Everything that can go wrong with one argument: its checks, and then the store,
    which fails when the backing name is itself a field descriptor. It depends on
    the argument alone, not on the arguments stored before it.
   */
  function ArgError<V, T>(c: RecordClass<V, T>, name: string, value: V, isInstance: (V, T) -> bool): Option<Error>
  {
    match CheckArg(c, name, value, isInstance)
    case Some(e) => Some(e)
    case None =>
      if IsFieldDescriptor(c, PrivateName(name)) then Some(ReadOnlyField(PrivateName(name))) else None
  }

  ghost predicate ArgsAreFields<V, T>(c: RecordClass<V, T>, kwargs: seq<(string, V)>)
  {
    forall j :: 0 <= j < |kwargs| ==> kwargs[j].0 in Keys(MergedFields(c))
  }

  /**
    The instance dictionary after every argument is stored: looking up the backing
    name of any name finds exactly what was passed for it, and nothing else is stored.
   */
  function Slots<V>(kwargs: Dict<V>): (r: Dict<V>)
    ensures |r| == |kwargs|
    ensures forall n {:trigger Get(r, PrivateName(n))} :: Get(r, PrivateName(n)) == Get(kwargs, n)
  {
    var r := seq(|kwargs|, j requires 0 <= j < |kwargs| => (PrivateName(kwargs[j].0), kwargs[j].1));
    assert DistinctKeys(r) by {
      forall i, j | 0 <= i < j < |r| ensures r[i].0 != r[j].0 {
        PrivateNameInjective(kwargs[i].0, kwargs[j].0);
      }
    }
    SlotsFindArguments(kwargs, r);
    r
  }

  /** Backing names are injective, so the slots answer for exactly the names passed. */
  lemma SlotsFindArguments<V>(kwargs: Dict<V>, r: Dict<V>)
    requires |r| == |kwargs|
    requires forall j :: 0 <= j < |kwargs| ==> r[j] == (PrivateName(kwargs[j].0), kwargs[j].1)
    ensures forall n {:trigger Get(r, PrivateName(n))} :: Get(r, PrivateName(n)) == Get(kwargs, n)
  {
    forall n ensures Get(r, PrivateName(n)) == Get(kwargs, n) {
      SlotFindsArgument(kwargs, r, n);
    }
  }

  lemma SlotFindsArgument<V>(kwargs: Dict<V>, r: Dict<V>, n: string)
    requires |r| == |kwargs|
    requires forall j :: 0 <= j < |kwargs| ==> r[j] == (PrivateName(kwargs[j].0), kwargs[j].1)
    ensures Get(r, PrivateName(n)) == Get(kwargs, n)
  {
    if n in Keys(kwargs) {
      var j :| 0 <= j < |kwargs| && Keys(kwargs)[j] == n;
      assert kwargs[j] == (n, kwargs[j].1);
      assert r[j] == (PrivateName(n), kwargs[j].1);
    } else {
      forall j | 0 <= j < |r| ensures Keys(r)[j] != PrivateName(n) {
        assert Keys(kwargs)[j] == kwargs[j].0;
        PrivateNameInjective(kwargs[j].0, n);
      }
    }
  }

  /** Slot `j` holds argument `j` under its backing name. */
  lemma SlotAt<V>(kwargs: Dict<V>, j: nat)
    requires j < |kwargs|
    ensures Slots(kwargs)[j] == (PrivateName(kwargs[j].0), kwargs[j].1)
  {
  }

  /** The slots once the first `i` arguments are stored. */
  function StoredUpTo<V>(kwargs: Dict<V>, i: nat): Dict<V>
    requires i <= |kwargs|
  {
    Slots(kwargs[..i])
  }

  /** Storing one more argument extends the slots by that argument. */
  lemma SlotsStep<V>(kwargs: Dict<V>, i: nat)
    requires i < |kwargs|
    ensures PrivateName(kwargs[i].0) !in Keys(StoredUpTo(kwargs, i))
    ensures Set(StoredUpTo(kwargs, i), PrivateName(kwargs[i].0), kwargs[i].1) == StoredUpTo(kwargs, i + 1)
  {
    var pre, n := StoredUpTo(kwargs, i), PrivateName(kwargs[i].0);
    forall j | 0 <= j < i ensures Keys(pre)[j] != n {
      SlotAt(kwargs[..i], j);
      PrivateNameInjective(kwargs[j].0, kwargs[i].0);
    }
    forall j | 0 <= j <= i ensures Slots(kwargs[..i + 1])[j] == (pre + [(n, kwargs[i].1)])[j] {
      SlotAt(kwargs[..i + 1], j);
      if j < i {
        SlotAt(kwargs[..i], j);
      }
    }
  }

  /** The argument loop, from argument `i` on, with arguments before `i` already stored. */
  function Bind<V, T>(inst: Instance<V, T>, kwargs: Dict<V>, isInstance: (V, T) -> bool, i: nat): (r: Result<Instance<V, T>, Error>)
    requires i <= |kwargs|
    requires inst.attrs == StoredUpTo(kwargs, i)
    ensures r.Ok? ==> r.value == Instance(inst.cls, Slots(kwargs))
    ensures r.Err? ==> !r.error.ArgumentMismatch?
    decreases |kwargs| - i
  {
    if i == |kwargs| then
      assert kwargs[..i] == kwargs;
      Ok(inst)
    else
      var (name, value) := kwargs[i];
      match CheckArg(inst.cls, name, value, isInstance)
      case Some(e) => Err(e)
      case None =>
        match SetAttr(inst, PrivateName(name), value)
        case Err(e) => Err(e)
        case Ok(next) =>
          SlotsStep(kwargs, i);
          Bind(next, kwargs, isInstance, i + 1)
  }

  /** The argument loop from argument `i` on succeeds iff no remaining argument is in error. */
  lemma {:induction false} BindSucceeds<V, T>(inst: Instance<V, T>, kwargs: Dict<V>, isInstance: (V, T) -> bool, i: nat)
    requires i <= |kwargs|
    requires inst.attrs == StoredUpTo(kwargs, i)
    ensures Bind(inst, kwargs, isInstance, i).Ok? <==>
              forall j :: i <= j < |kwargs| ==> ArgError(inst.cls, kwargs[j].0, kwargs[j].1, isInstance).None?
    decreases |kwargs| - i
  {
    if i == |kwargs| {
      assert Bind(inst, kwargs, isInstance, i).Ok?;
    } else {
      var next := BindStep(inst, kwargs, isInstance, i);
      if ArgError(inst.cls, kwargs[i].0, kwargs[i].1, isInstance).None? {
        BindSucceeds(next, kwargs, isInstance, i + 1);
        assert (forall j :: i <= j < |kwargs| ==> ArgError(inst.cls, kwargs[j].0, kwargs[j].1, isInstance).None?) <==>
               (forall j :: i + 1 <= j < |kwargs| ==> ArgError(inst.cls, kwargs[j].0, kwargs[j].1, isInstance).None?);
      } else {
        assert Bind(inst, kwargs, isInstance, i).Err?;
      }
    }
  }

  /** A failing argument loop fails with the error of the first bad argument in call order. */
  lemma {:induction false} BindFirstError<V, T>(inst: Instance<V, T>, kwargs: Dict<V>, isInstance: (V, T) -> bool, i: nat, j: nat)
    requires i <= j < |kwargs|
    requires inst.attrs == StoredUpTo(kwargs, i)
    requires ArgError(inst.cls, kwargs[j].0, kwargs[j].1, isInstance).Some?
    requires forall l :: i <= l < j ==> ArgError(inst.cls, kwargs[l].0, kwargs[l].1, isInstance).None?
    ensures Bind(inst, kwargs, isInstance, i) == Err(ArgError(inst.cls, kwargs[j].0, kwargs[j].1, isInstance).value)
    decreases |kwargs| - i
  {
    var next := BindStep(inst, kwargs, isInstance, i);
    if i < j {
      BindFirstError(next, kwargs, isInstance, i + 1, j);
    }
  }

  /**
    One turn of the argument loop: a bad argument stops it, a good one is stored
    and the loop goes on from the instance `next` holding one more slot.
   */
  lemma BindStep<V, T>(inst: Instance<V, T>, kwargs: Dict<V>, isInstance: (V, T) -> bool, i: nat) returns (next: Instance<V, T>)
    requires i < |kwargs|
    requires inst.attrs == StoredUpTo(kwargs, i)
    ensures next.cls == inst.cls && next.attrs == StoredUpTo(kwargs, i + 1)
    ensures ArgError(inst.cls, kwargs[i].0, kwargs[i].1, isInstance).Some? ==>
              Bind(inst, kwargs, isInstance, i) == Err(ArgError(inst.cls, kwargs[i].0, kwargs[i].1, isInstance).value)
    ensures ArgError(inst.cls, kwargs[i].0, kwargs[i].1, isInstance).None? ==>
              Bind(inst, kwargs, isInstance, i) == Bind(next, kwargs, isInstance, i + 1)
  {
    next := Instance(inst.cls, StoredUpTo(kwargs, i + 1));
    if ArgError(inst.cls, kwargs[i].0, kwargs[i].1, isInstance).None? {
      StoreStep(inst, kwargs, isInstance, i);
    }
  }

  /** A good argument is stored under its backing name, and the loop goes on. */
  lemma StoreStep<V, T>(inst: Instance<V, T>, kwargs: Dict<V>, isInstance: (V, T) -> bool, i: nat)
    requires i < |kwargs|
    requires inst.attrs == StoredUpTo(kwargs, i)
    requires ArgError(inst.cls, kwargs[i].0, kwargs[i].1, isInstance).None?
    ensures Bind(inst, kwargs, isInstance, i) == Bind(Instance(inst.cls, StoredUpTo(kwargs, i + 1)), kwargs, isInstance, i + 1)
  {
    SlotsStep(kwargs, i);
    assert SetAttr(inst, PrivateName(kwargs[i].0), kwargs[i].1) == Ok(Instance(inst.cls, StoredUpTo(kwargs, i + 1)));
  }

  /** `Record.__init__(**kwargs)` on a fresh instance of class `c`. */
  function Construct<V, T>(c: RecordClass<V, T>, kwargs: Dict<V>, isInstance: (V, T) -> bool): (r: Result<Instance<V, T>, Error>)
    ensures r == Err(ArgumentMismatch) <==> !NamesMatch(c, kwargs)
    ensures r.Ok? ==> r.value == Instance(c, Slots(kwargs))
  {
    if !NamesMatch(c, kwargs) then Err(ArgumentMismatch)
    else
      assert kwargs[..0] == [];
      Bind(Instance(c, []), kwargs, isInstance, 0)
  }

  lemma NamesMatchCoversArgs<V, T>(c: RecordClass<V, T>, kwargs: Dict<V>)
    requires NamesMatch(c, kwargs)
    ensures ArgsAreFields(c, kwargs)
  {
    forall j | 0 <= j < |kwargs| ensures kwargs[j].0 in Keys(MergedFields(c)) {
      assert Keys(kwargs)[j] == kwargs[j].0;
      assert kwargs[j].0 in KeySet(kwargs);
    }
  }

  /**
    Once the names match, construction succeeds iff no argument has an error, and
    a failure reports the first offending argument in the order they were passed.
   */
  lemma ConstructOutcome<V, T>(c: RecordClass<V, T>, kwargs: Dict<V>, isInstance: (V, T) -> bool)
    requires NamesMatch(c, kwargs)
    ensures ArgsAreFields(c, kwargs)
    ensures Construct(c, kwargs, isInstance).Ok? <==>
              forall j :: 0 <= j < |kwargs| ==> ArgError(c, kwargs[j].0, kwargs[j].1, isInstance).None?
    ensures forall j :: 0 <= j < |kwargs| && ArgError(c, kwargs[j].0, kwargs[j].1, isInstance).Some?
                        && (forall l :: 0 <= l < j ==> ArgError(c, kwargs[l].0, kwargs[l].1, isInstance).None?)
              ==> Construct(c, kwargs, isInstance) == Err(ArgError(c, kwargs[j].0, kwargs[j].1, isInstance).value)
  {
    NamesMatchCoversArgs(c, kwargs);
    assert kwargs[..0] == [];
    assert Construct(c, kwargs, isInstance) == Bind(Instance(c, []), kwargs, isInstance, 0);
    BindSucceeds(Instance(c, []), kwargs, isInstance, 0);
    forall j | 0 <= j < |kwargs| && ArgError(c, kwargs[j].0, kwargs[j].1, isInstance).Some?
                && (forall l :: 0 <= l < j ==> ArgError(c, kwargs[l].0, kwargs[l].1, isInstance).None?)
      ensures Construct(c, kwargs, isInstance) == Err(ArgError(c, kwargs[j].0, kwargs[j].1, isInstance).value)
    {
      BindFirstError(Instance(c, []), kwargs, isInstance, 0, j);
    }
  }

  /** A declared field left out of the call fails the name check. */
  lemma MissingFieldFails<V, T>(c: RecordClass<V, T>, kwargs: Dict<V>, isInstance: (V, T) -> bool, n: string)
    requires n in Keys(MergedFields(c)) && n !in Keys(kwargs)
    ensures Construct(c, kwargs, isInstance) == Err(ArgumentMismatch)
  {
    assert n in KeySet(MergedFields(c));
  }

  /** A name passed that is not a declared field fails the name check. */
  lemma UnknownNameFails<V, T>(c: RecordClass<V, T>, kwargs: Dict<V>, isInstance: (V, T) -> bool, n: string)
    requires n in Keys(kwargs) && n !in Keys(MergedFields(c))
    ensures Construct(c, kwargs, isInstance) == Err(ArgumentMismatch)
  {
    assert n in KeySet(kwargs);
  }

  /** With matching names and no argument in error, construction stores every argument. */
  lemma ValidArgumentsConstruct<V, T>(c: RecordClass<V, T>, kwargs: Dict<V>, isInstance: (V, T) -> bool)
    requires NamesMatch(c, kwargs)
    requires forall j :: 0 <= j < |kwargs| ==> ArgError(c, kwargs[j].0, kwargs[j].1, isInstance).None?
    ensures Construct(c, kwargs, isInstance) == Ok(Instance(c, Slots(kwargs)))
  {
    ConstructOutcome(c, kwargs, isInstance);
  }

  /**
    A value that is not an instance of its field's annotated type makes construction
    fail. The type is checked before the precondition, so that argument's error is a
    type error whatever its precondition says; and when every other argument is
    valid, it is the error construction reports.
   */
  lemma IllTypedArgumentFails<V, T>(c: RecordClass<V, T>, kwargs: Dict<V>, isInstance: (V, T) -> bool, j: nat, t: T)
    requires NamesMatch(c, kwargs) && j < |kwargs|
    requires Get(MergedAnnotations(c), kwargs[j].0) == Some(t) && !isInstance(kwargs[j].1, t)
    ensures Construct(c, kwargs, isInstance).Err?
    ensures (forall l :: 0 <= l < |kwargs| && l != j ==> ArgError(c, kwargs[l].0, kwargs[l].1, isInstance).None?)
              ==> Construct(c, kwargs, isInstance) == Err(WrongType(kwargs[j].0))
  {
    ConstructOutcome(c, kwargs, isInstance);
    assert ArgError(c, kwargs[j].0, kwargs[j].1, isInstance) == Some(WrongType(kwargs[j].0));
  }

  /**
    A well-typed value that its field's precondition rejects makes construction
    fail; when every other argument is valid, the failure names that field.
   */
  lemma FailedPreconditionFails<V, T>(c: RecordClass<V, T>, kwargs: Dict<V>, isInstance: (V, T) -> bool, j: nat, t: T, f: Field<V>)
    requires NamesMatch(c, kwargs) && j < |kwargs|
    requires Get(MergedAnnotations(c), kwargs[j].0) == Some(t) && isInstance(kwargs[j].1, t)
    requires Get(MergedFields(c), kwargs[j].0) == Some(f) && !PreconditionHolds(f.precondition, kwargs[j].1)
    ensures Construct(c, kwargs, isInstance).Err?
    ensures (forall l :: 0 <= l < |kwargs| && l != j ==> ArgError(c, kwargs[l].0, kwargs[l].1, isInstance).None?)
              ==> Construct(c, kwargs, isInstance) == Err(PreconditionFailed(kwargs[j].0))
  {
    ConstructOutcome(c, kwargs, isInstance);
    assert ArgError(c, kwargs[j].0, kwargs[j].1, isInstance) == Some(PreconditionFailed(kwargs[j].0));
  }

  /**
    An argument whose field has no precondition passes its checks once its type is
    right: the precondition check is skipped.
   */
  lemma NoPreconditionSkipsCheck<V, T>(c: RecordClass<V, T>, name: string, value: V, isInstance: (V, T) -> bool, t: T, f: Field<V>)
    requires Get(MergedFields(c), name) == Some(f) && f.precondition.None?
    requires Get(MergedAnnotations(c), name) == Some(t) && isInstance(value, t)
    ensures CheckArg(c, name, value, isInstance).None?
  {
  }

  /**
    After a successful construction, reading a field of the field table returns
    exactly the value that was supplied for it. A descriptor outside the table (one
    that a plain mixin binds) was supplied nothing, so reading it finds the class's
    plain `_name`, if there is one, and fails otherwise.
   */
  lemma ReadBack<V, T>(c: RecordClass<V, T>, kwargs: Dict<V>, isInstance: (V, T) -> bool, n: string)
    requires Construct(c, kwargs, isInstance).Ok?
    requires IsFieldDescriptor(c, n)
    ensures Get(kwargs, n).Some? <==> n in Keys(MergedFields(c))
    ensures n in Keys(MergedFields(c)) ==> GetAttr(Construct(c, kwargs, isInstance).value, n) == Ok(Get(kwargs, n).value)
    ensures n !in Keys(MergedFields(c)) ==>
              GetAttr(Construct(c, kwargs, isInstance).value, n)
              == if PlainBinding(c, PrivateName(n)) then Ok(LookupIn(c.Mro(), PrivateName(n)).value.value)
                 else Err(NoAttribute(PrivateName(n)))
  {
    assert n in Keys(MergedFields(c)) <==> n in KeySet(MergedFields(c));
  }

  /**
    After a successful construction every write to a field descriptor fails with
    `AttributeError`, and a field of the table still reads the value it was
    constructed with.
   */
  lemma FieldsStayReadOnly<V, T>(c: RecordClass<V, T>, kwargs: Dict<V>, isInstance: (V, T) -> bool, n: string, v: V)
    requires Construct(c, kwargs, isInstance).Ok?
    requires IsFieldDescriptor(c, n)
    ensures var inst := Construct(c, kwargs, isInstance).value;
            && SetAttr(inst, n, v) == Err(ReadOnlyField(n))
            && (n in Keys(MergedFields(c)) ==> Get(kwargs, n).Some? && GetAttr(inst, n) == Ok(Get(kwargs, n).value))
  {
    ReadBack(c, kwargs, isInstance, n);
  }
}

=== FILE: dicts.dfy ===
/**
  Python's insertion-ordered `dict` with string keys, as an association list whose keys are distinct.
  Assigning to a key that is already present replaces its value in place; a new key
  is appended. A dict comprehension over a sequence of pairs is the fold of those
  assignments, so the last pair for a key decides its value while its first pair
  decides its position.
 */
module Dicts {
  import opened Wrappers

  /** The keys of an association list, in order. */
  function Keys<V>(d: seq<(string, V)>): seq<string>
  {
    seq(|d|, i requires 0 <= i < |d| => d[i].0)
  }

  /** `set(d)`: the keys as a set. */
  function KeySet<V>(d: seq<(string, V)>): set<string>
  {
    set k | k in Keys(d)
  }

  ghost predicate DistinctKeys<V>(d: seq<(string, V)>)
  {
    forall i, j :: 0 <= i < j < |d| ==> d[i].0 != d[j].0
  }

  /** A dictionary: no key occurs twice. */
  type Dict<V> = d: seq<(string, V)> | DistinctKeys(d) witness []

  /** `d[k]`, or None when `k` is absent (Python raises `KeyError`). */
  function Get<V>(d: seq<(string, V)>, k: string): (r: Option<V>)
    ensures r.None? <==> k !in Keys(d)
    ensures DistinctKeys(d) ==> forall i :: 0 <= i < |d| && d[i].0 == k ==> r == Some(d[i].1)
  {
    if d == [] then None
    else if d[0].0 == k then
      assert Keys(d)[0] == k;
      Some(d[0].1)
    else
      assert Keys(d) == [d[0].0] + Keys(d[1..]);
      assert forall i :: 1 <= i < |d| ==> d[1..][i - 1] == d[i];
      Get(d[1..], k)
  }

  /** Looking up a list that starts with `x`. */
  lemma GetCons<V>(x: (string, V), rest: seq<(string, V)>)
    ensures Keys([x] + rest) == [x.0] + Keys(rest)
    ensures forall n :: Get([x] + rest, n) == if x.0 == n then Some(x.1) else Get(rest, n)
    ensures DistinctKeys([x] + rest) <==> x.0 !in Keys(rest) && DistinctKeys(rest)
  {
    var d := [x] + rest;
    assert d[1..] == rest;
    assert Keys(d) == [x.0] + Keys(rest);
    assert forall i :: 1 <= i < |d| ==> d[i] == rest[i - 1];
    if x.0 !in Keys(rest) && DistinctKeys(rest) {
      forall i, j | 0 <= i < j < |d| ensures d[i].0 != d[j].0 {
        if i == 0 {
          assert Keys(rest)[j - 1] == d[j].0;
        }
      }
    }
    if DistinctKeys(d) {
      forall i | 0 <= i < |rest| ensures Keys(rest)[i] != x.0 {
        assert d[i + 1] == rest[i] && d[0].0 != d[i + 1].0;
      }
    }
  }

  /** `d[k] = v`: replace in place when present, append otherwise. */
  function Set<V>(d: Dict<V>, k: string, v: V): (r: Dict<V>)
    ensures Get(r, k) == Some(v)
    ensures forall k' :: k' != k ==> Get(r, k') == Get(d, k')
    ensures Keys(r) == if k in Keys(d) then Keys(d) else Keys(d) + [k]
  {
    if k in Keys(d) then Replace(d, k, v) else Append(d, k, v)
  }

  /** `d` with the value at the present key `k` replaced, every position kept. */
  function Replace<V>(d: Dict<V>, k: string, v: V): (r: Dict<V>)
    requires k in Keys(d)
    ensures Keys(r) == Keys(d)
    ensures Get(r, k) == Some(v)
    ensures forall k' :: k' != k ==> Get(r, k') == Get(d, k')
  {
    var r := seq(|d|, i requires 0 <= i < |d| => if d[i].0 == k then (k, v) else d[i]);
    assert Keys(r) == Keys(d);
    ReplaceLookup(d, r, k, v);
    r
  }

  lemma ReplaceLookup<V>(d: Dict<V>, r: Dict<V>, k: string, v: V)
    requires k in Keys(d) && |r| == |d|
    requires forall i :: 0 <= i < |d| ==> r[i] == if d[i].0 == k then (k, v) else d[i]
    ensures Get(r, k) == Some(v)
    ensures forall k' :: k' != k ==> Get(r, k') == Get(d, k')
  {
    var i := FirstIndex(Keys(d), k);
    assert r[i] == (k, v);
    forall k' | k' != k ensures Get(r, k') == Get(d, k') {
      if k' in Keys(d) {
        var j := FirstIndex(Keys(d), k');
        assert r[j] == d[j];
        assert Keys(r)[j] == k';
      } else {
        assert Keys(r) == Keys(d);
      }
    }
  }

  /** `d` with the new key `k` added at the end. */
  function Append<V>(d: Dict<V>, k: string, v: V): (r: Dict<V>)
    requires k !in Keys(d)
    ensures Keys(r) == Keys(d) + [k]
    ensures Get(r, k) == Some(v)
    ensures forall k' :: k' != k ==> Get(r, k') == Get(d, k')
  {
    assert forall i :: 0 <= i < |d| ==> Keys(d)[i] == d[i].0;
    var r := d + [(k, v)];
    assert Keys(r) == Keys(d) + [k];
    assert r[|d|] == (k, v);
    assert forall k' :: k' != k && k' in Keys(d) ==> Get(r, k') == Get(d, k') by {
      forall k' | k' != k && k' in Keys(d) ensures Get(r, k') == Get(d, k') {
        var j := FirstIndex(Keys(d), k');
        assert r[j] == d[j];
      }
    }
    r
  }

  /**
    The value paired with `k` at its last occurrence in `ps`: the reference for
    "last write wins", stated by index in the contract.
   */
  function LastValue<V>(ps: seq<(string, V)>, k: string): (r: Option<V>)
    ensures r.None? <==> k !in Keys(ps)
    ensures forall i :: 0 <= i < |ps| && ps[i].0 == k && (forall j :: i < j < |ps| ==> ps[j].0 != k)
              ==> r == Some(ps[i].1)
  {
    if ps == [] then None
    else if ps[|ps| - 1].0 == k then
      assert Keys(ps)[|ps| - 1] == k;
      Some(ps[|ps| - 1].1)
    else
      assert Keys(ps) == Keys(ps[..|ps| - 1]) + [ps[|ps| - 1].0];
      assert forall i :: 0 <= i < |ps| - 1 ==> ps[..|ps| - 1][i] == ps[i];
      LastValue(ps[..|ps| - 1], k)
  }

  /** `{k: v for k, v in ps}`. */
  function FromPairs<V>(ps: seq<(string, V)>): (r: Dict<V>)
    ensures forall k :: k in Keys(r) <==> k in Keys(ps)
  {
    if ps == [] then []
    else
      assert Keys(ps) == Keys(ps[..|ps| - 1]) + [ps[|ps| - 1].0];
      Set(FromPairs(ps[..|ps| - 1]), ps[|ps| - 1].0, ps[|ps| - 1].1)
  }

  /** A comprehension over the items of a dictionary rebuilds that dictionary. */
  lemma {:induction false} FromPairsOfDict<V>(d: Dict<V>)
    ensures FromPairs(d) == d
  {
    if d != [] {
      var init, k, v := d[..|d| - 1], d[|d| - 1].0, d[|d| - 1].1;
      assert d == init + [(k, v)];
      FromPairsOfDict(init);
      assert FromPairs(d) == Set(FromPairs(init), k, v);
      forall i | 0 <= i < |init| ensures Keys(init)[i] != k {
        assert init[i] == d[i];
      }
      AppendAtEnd(init, k, v);
    }
  }

  lemma AppendAtEnd<V>(d: Dict<V>, k: string, v: V)
    requires k !in Keys(d)
    ensures Set(d, k, v) == d + [(k, v)]
  {
  }

  /** The concatenation of a sequence of association lists, in order. */
  function Flatten<V>(ds: seq<seq<(string, V)>>): seq<(string, V)>
  {
    if ds == [] then [] else Flatten(ds[..|ds| - 1]) + ds[|ds| - 1]
  }

  /** `{k: v for d in ds for k, v in d.items()}`: later dictionaries override earlier ones. */
  function Merge<V>(ds: seq<Dict<V>>): Dict<V>
  {
    FromPairs(Flatten(ds))
  }

  /** The position of the first occurrence of `k`. */
  function FirstIndex(ks: seq<string>, k: string): (i: nat)
    requires k in ks
    ensures i < |ks| && ks[i] == k && k !in ks[..i]
  {
    if ks[0] == k then 0
    else
      assert ks == [ks[0]] + ks[1..];
      var j := FirstIndex(ks[1..], k);
      assert ks[..j + 1] == [ks[0]] + ks[1..][..j];
      j + 1
  }

  /** A key that is not the head keeps its first position, shifted by one. */
  lemma FirstIndexCons(x: string, ks: seq<string>, k: string)
    requires k in ks && k != x
    ensures k in [x] + ks && FirstIndex([x] + ks, k) == 1 + FirstIndex(ks, k)
  {
    assert ([x] + ks)[1..] == ks;
  }

  /** The keys of `d` all occur in `ks`, in the order of their first occurrence there. */
  predicate OrderedBy<X>(d: seq<(string, X)>, ks: seq<string>)
  {
    && (forall i :: 0 <= i < |d| ==> d[i].0 in ks)
    && forall i, j :: 0 <= i < j < |d| ==> FirstIndex(ks, d[i].0) < FirstIndex(ks, d[j].0)
  }

  /** Putting a new key `h` in front of `ks` keeps `d` in order, each position shifted by one. */
  lemma OrderedShift<X>(h: string, ks: seq<string>, d: seq<(string, X)>)
    requires h !in ks && OrderedBy(d, ks)
    ensures OrderedBy(d, [h] + ks)
    ensures forall i :: 0 <= i < |d| ==> FirstIndex([h] + ks, d[i].0) == 1 + FirstIndex(ks, d[i].0)
  {
    forall i | 0 <= i < |d|
      ensures d[i].0 in [h] + ks && FirstIndex([h] + ks, d[i].0) == 1 + FirstIndex(ks, d[i].0)
    {
      FirstIndexCons(h, ks, d[i].0);
    }
  }

  /** An entry whose key comes before every key of `d` in `ks` can be put in front of `d`. */
  lemma OrderedPrepend<X>(x: (string, X), d: seq<(string, X)>, ks: seq<string>)
    requires OrderedBy(d, ks) && x.0 in ks
    requires forall i :: 0 <= i < |d| ==> FirstIndex(ks, x.0) < FirstIndex(ks, d[i].0)
    ensures OrderedBy([x] + d, ks)
  {
    var r := [x] + d;
    assert r[0] == x;
    assert forall i :: 0 < i < |r| ==> r[i] == d[i - 1];
  }

  /** An entry for the new first key `h`, put in front of `d`, keeps the whole in order. */
  lemma OrderedCons<X>(h: string, ks: seq<string>, x: (string, X), d: seq<(string, X)>)
    requires h !in ks && OrderedBy(d, ks) && x.0 == h
    ensures OrderedBy([x] + d, [h] + ks)
  {
    OrderedShift(h, ks, d);
    assert FirstIndex([h] + ks, h) == 0 by {
      assert ([h] + ks)[0] == h;
    }
    OrderedPrepend(x, d, [h] + ks);
  }

  /** A comprehension keeps, for each key, the value of its last pair. */
  lemma {:induction false} FromPairsLastWins<V>(ps: seq<(string, V)>, k: string)
    ensures Get(FromPairs(ps), k) == LastValue(ps, k)
  {
    if ps != [] {
      FromPairsLastWins(ps[..|ps| - 1], k);
    }
  }

  lemma FirstIndexOfExtended(ks: seq<string>, x: string, k: string)
    requires k in ks
    ensures FirstIndex(ks + [x], k) == FirstIndex(ks, k)
  {
    var i, j := FirstIndex(ks + [x], k), FirstIndex(ks, k);
    assert (ks + [x])[j] == k;
  }

  /** A comprehension orders its keys by their first occurrence in `ps`. */
  lemma {:induction false} FromPairsOrder<V>(ps: seq<(string, V)>)
    ensures OrderedBy(FromPairs(ps), Keys(ps))
  {
    if ps != [] {
      var init, x := ps[..|ps| - 1], ps[|ps| - 1];
      FromPairsOrder(init);
      assert Keys(ps) == Keys(init) + [x.0];
      assert FromPairs(ps) == Set(FromPairs(init), x.0, x.1);
      OrderedSet(FromPairs(init), Keys(init), x.0, x.1);
    }
  }

  /**
    A dictionary whose keys are exactly those of `ks`, in first-occurrence order, stays
    in first-occurrence order of `ks + [k]` after `d[k] = v`.
   */
  lemma OrderedSet<V>(d: Dict<V>, ks: seq<string>, k: string, v: V)
    requires OrderedBy(d, ks) && forall k' :: k' in ks ==> k' in Keys(d)
    ensures OrderedBy(Set(d, k, v), ks + [k])
  {
    var r := Set(d, k, v);
    forall i | 0 <= i < |r| ensures r[i].0 in ks + [k] {
      SetKeyAt(d, ks, k, v, i);
    }
    forall i, j | 0 <= i < j < |r|
      ensures FirstIndex(ks + [k], r[i].0) < FirstIndex(ks + [k], r[j].0)
    {
      OrderStep(d, ks, k, v, i, j);
    }
  }

  /** After `d[k] = v`, position `i` holds the key it held in `d`, or `k` appended at the end. */
  lemma SetKeyAt<V>(d: Dict<V>, ks: seq<string>, k: string, v: V, i: nat)
    requires OrderedBy(d, ks)
    requires i < |Set(d, k, v)|
    ensures i < |d| ==> Set(d, k, v)[i].0 == d[i].0
    ensures i == |d| ==> Set(d, k, v)[i].0 == k && k !in Keys(d)
    ensures Set(d, k, v)[i].0 in ks + [k]
  {
    var r := Set(d, k, v);
    assert Keys(r)[i] == r[i].0;
    if i < |d| {
      assert Keys(d)[i] == d[i].0;
    }
  }

  lemma OrderStep<V>(d: Dict<V>, ks: seq<string>, k: string, v: V, i: nat, j: nat)
    requires OrderedBy(d, ks) && forall k' :: k' in ks ==> k' in Keys(d)
    requires i < j < |Set(d, k, v)|
    ensures Set(d, k, v)[i].0 in ks + [k] && Set(d, k, v)[j].0 in ks + [k]
    ensures FirstIndex(ks + [k], Set(d, k, v)[i].0) < FirstIndex(ks + [k], Set(d, k, v)[j].0)
  {
    SetKeyAt(d, ks, k, v, i);
    SetKeyAt(d, ks, k, v, j);
    if j < |d| {
      ExtendedLess(ks, k, d[i].0, d[j].0);
    } else {
      AppendedLast(ks, k, d[i].0);
    }
  }

  /** Appending to `ks` keeps the relative order of keys already in it. */
  lemma ExtendedLess(ks: seq<string>, k: string, a: string, b: string)
    requires a in ks && b in ks && FirstIndex(ks, a) < FirstIndex(ks, b)
    ensures a in ks + [k] && b in ks + [k] && FirstIndex(ks + [k], a) < FirstIndex(ks + [k], b)
  {
    FirstIndexOfExtended(ks, k, a);
    FirstIndexOfExtended(ks, k, b);
  }

  /** A new key appended to `ks` comes after every key already in it. */
  lemma AppendedLast(ks: seq<string>, k: string, a: string)
    requires a in ks && k !in ks
    ensures a in ks + [k] && k in ks + [k] && FirstIndex(ks + [k], a) < FirstIndex(ks + [k], k)
  {
    FirstIndexOfExtended(ks, k, a);
    assert (ks + [k])[|ks|] == k;
    assert (ks + [k])[..|ks|] == ks;
  }

  /** Looking up a dictionary through its own comprehension changes nothing. */
  lemma LastValueOfDict<V>(d: Dict<V>, k: string)
    ensures LastValue(d, k) == Get(d, k)
  {
    if k in Keys(d) {
      var i :| 0 <= i < |d| && Keys(d)[i] == k;
      assert forall j :: i < j < |d| ==> d[j].0 != k;
    }
  }

  lemma {:induction false} LastValueOfAppend<V>(a: seq<(string, V)>, b: seq<(string, V)>, k: string)
    ensures LastValue(a + b, k) == if k in Keys(b) then LastValue(b, k) else LastValue(a, k)
  {
    if b != [] {
      var b' := b[..|b| - 1];
      assert (a + b)[..|a + b| - 1] == a + b';
      assert Keys(b) == Keys(b') + [b[|b| - 1].0];
      LastValueOfAppend(a, b', k);
    } else {
      assert a + b == a;
    }
  }

  /** The last dictionary of a non-empty chain overrides the merge of the others. */
  lemma MergeStep<V>(ds: seq<Dict<V>>, k: string)
    requires ds != []
    ensures Get(Merge(ds), k) == if k in Keys(ds[|ds| - 1]) then Get(ds[|ds| - 1], k) else Get(Merge(ds[..|ds| - 1]), k)
  {
    var init, last := ds[..|ds| - 1], ds[|ds| - 1];
    FromPairsLastWins(Flatten(ds), k);
    FromPairsLastWins(Flatten(init), k);
    LastValueOfAppend(Flatten(init), last, k);
    LastValueOfDict(last, k);
  }

  /** A key is in the merge of a chain of dictionaries iff some dictionary of the chain has it. */
  lemma {:induction false} MergeKeys<V>(ds: seq<Dict<V>>, k: string)
    ensures Get(Merge(ds), k).None? <==> forall i :: 0 <= i < |ds| ==> k !in Keys(ds[i])
  {
    if ds != [] {
      var init, last := ds[..|ds| - 1], ds[|ds| - 1];
      MergeKeys(init, k);
      MergeStep(ds, k);
      if Get(Merge(ds), k).None? {
        forall i | 0 <= i < |ds| ensures k !in Keys(ds[i]) {
          if i < |ds| - 1 {
            assert ds[i] == init[i];
          }
        }
      } else if k !in Keys(last) {
        var i :| 0 <= i < |init| && k in Keys(init[i]);
        assert ds[i] == init[i];
      }
    }
  }

  /**
    In the merge of a chain of dictionaries a key takes its value from the LAST
    dictionary of the chain that has it.
   */
  lemma {:induction false} MergeLastWins<V>(ds: seq<Dict<V>>, k: string, i: nat)
    requires i < |ds| && k in Keys(ds[i])
    requires forall j :: i < j < |ds| ==> k !in Keys(ds[j])
    ensures Get(Merge(ds), k) == Get(ds[i], k)
  {
    MergeStep(ds, k);
    if i < |ds| - 1 {
      var init := ds[..|ds| - 1];
      assert k !in Keys(ds[|ds| - 1]);
      assert init[i] == ds[i];
      forall j | i < j < |init| ensures k !in Keys(init[j]) {
        assert init[j] == ds[j];
      }
      MergeLastWins(init, k, i);
    }
  }
}

=== FILE: errors.dfy ===
/**
  Why an operation fails, and the Python exception class the source raises for it.
  The kinds only tell failures apart for the proofs; the source itself raises
  `TypeError` for every validation failure, `AttributeError` for writes to a
  field and for reads of a missing slot, and `KeyError` for a field that has no
  type annotation (the field-table lookup would raise it too, but only for a name
  the name check has already rejected, so it never does).
 */
module Errors {

  datatype Error =
    | ArgumentMismatch               // argument names differ from the field names
    | UnknownField(name: string)      // an argument name missing from the field table
    | MissingAnnotation(name: string) // a field without a type annotation
    | WrongType(name: string)        // the value is not an instance of the annotated type
    | PreconditionFailed(name: string)
    | ReadOnlyField(name: string)    // a write reached a field descriptor
    | NoAttribute(name: string)

  datatype Exception = TypeError | KeyError | AttributeError

  function Raised(e: Error): Exception
  {
    match e
    case ArgumentMismatch | WrongType(_) | PreconditionFailed(_) => TypeError
    case UnknownField(_) | MissingAnnotation(_) => KeyError
    case ReadOnlyField(_) | NoAttribute(_) => AttributeError
  }
}

=== FILE: examples.dfy ===
/**
  The record classes the program declares (`Person`, and the chain `Named`,
  `Animal`, `Dog`) over a small universe of Python values, and the behaviour its
  unit tests expect of them, stated as lemmas.
 */
module Examples {
  import opened Wrappers
  import opened Dicts
  import opened Schema
  import opened Errors
  import opened Attributes
  import opened Construction
  import opened Rendering

  datatype PyValue = PyStr(s: string) | PyInt(i: int) | PyFloat(r: real)

  datatype PyType = StrType | IntType | FloatType

  /** `isinstance(v, t)` for the three built-in types used here. */
  function IsInstance(v: PyValue, t: PyType): bool
  {
    match t
    case StrType => v.PyStr?
    case IntType => v.PyInt?
    case FloatType => v.PyFloat?
  }

  /** `lambda x: 0 <= x <= 150`; a comparison with a string raises, which fails construction too. */
  function AgeInRange(v: PyValue): bool
  {
    match v
    case PyInt(i) => 0 <= i <= 150
    case PyFloat(r) => 0.0 <= r <= 150.0
    case PyStr(_) => false
  }

  /** `lambda x: 0 <= x`. */
  function NonNegative(v: PyValue): bool
  {
    match v
    case PyInt(i) => 0 <= i
    case PyFloat(r) => 0.0 <= r
    case PyStr(_) => false
  }

  /** `lambda x: x in ["air", "land", "water"]`. */
  function KnownHabitat(v: PyValue): bool
  {
    v == PyStr("air") || v == PyStr("land") || v == PyStr("water")
  }

  const ObjectClass: ClassDef<PyValue, PyType> := ClassDef("object", [], [], false)
  const RecordBase: ClassDef<PyValue, PyType> := ClassDef("Record", [], [], true)

  const NameField: Field<PyValue> := Field("The name", None)
  const AgeField: Field<PyValue> := Field("The person's age", Some(AgeInRange))
  const IncomeField: Field<PyValue> := Field("The person's income", Some(NonNegative))

  const PersonDecl: ClassDef<PyValue, PyType> :=
    ClassDef("Person",
             [("__doc__", PlainAttr(PyStr("A simple person record"))),
              ("name", FieldAttr(NameField)),
              ("age", FieldAttr(AgeField)),
              ("income", FieldAttr(IncomeField))],
             [("name", StrType), ("age", IntType), ("income", FloatType)],
             true)

  const Person: RecordClass<PyValue, PyType> := Lineage(PersonDecl, [RecordBase, ObjectClass])

  function PersonArgs(name: PyValue, age: PyValue, income: PyValue): Dict<PyValue>
  {
    [("name", name), ("age", age), ("income", income)]
  }

  lemma PersonOwnFields()
    ensures OwnFields(PersonDecl) == [("name", NameField), ("age", AgeField), ("income", IncomeField)]
  {
    var income := [("income", FieldAttr(IncomeField))];
    var age := [("age", FieldAttr(AgeField))] + income;
    var name := [("name", FieldAttr(NameField))] + age;
    FieldEntriesCons(income[0], []);
    FieldEntriesCons(age[0], income);
    FieldEntriesCons(name[0], age);
    FieldEntriesCons(PersonDecl.namespace[0], name);
    assert PersonDecl.namespace == [PersonDecl.namespace[0]] + name;
  }

  lemma PersonTables()
    ensures MergedFields(Person) == [("name", NameField), ("age", AgeField), ("income", IncomeField)]
    ensures MergedAnnotations(Person) == [("name", StrType), ("age", IntType), ("income", FloatType)]
  {
    PersonFieldTable();
    PersonAnnotationTable();
  }

  lemma PersonFieldTable()
    ensures MergedFields(Person) == [("name", NameField), ("age", AgeField), ("income", IncomeField)]
  {
    var own := OwnFields(PersonDecl);
    PersonOwnFields();
    assert OwnFields(RecordBase) == [] && OwnFields(ObjectClass) == [];
    assert FieldTables(Person) == [own, [], []];
    FlattenThree(own);
    FromPairsOfDict(own);
  }

  lemma PersonAnnotationTable()
    ensures MergedAnnotations(Person) == [("name", StrType), ("age", IntType), ("income", FloatType)]
  {
    assert AnnotationTables(Person) == [PersonDecl.annotations, [], []];
    FlattenThree(PersonDecl.annotations);
    FromPairsOfDict(PersonDecl.annotations);
  }

  /** No backing name `_name`, `_age`, `_income` is itself bound on the class. */
  lemma PersonBackingNamesFree()
    ensures !IsFieldDescriptor(Person, PrivateName("name"))
    ensures !IsFieldDescriptor(Person, PrivateName("age"))
    ensures !IsFieldDescriptor(Person, PrivateName("income"))
  {
    assert PrivateName("name") == "_name" && PrivateName("age") == "_age" && PrivateName("income") == "_income";
    UnboundOnPerson("_name");
    UnboundOnPerson("_age");
    UnboundOnPerson("_income");
  }

  /** A name `Person`'s body does not bind resolves to nothing. */
  lemma UnboundOnPerson(n: string)
    requires n !in ["__doc__", "name", "age", "income"]
    ensures LookupIn(Person.Mro(), n).None?
  {
    var mro := Person.Mro();
    assert mro == [PersonDecl, RecordBase, ObjectClass];
    assert Keys(PersonDecl.namespace) == ["__doc__", "name", "age", "income"];
    assert forall i :: 0 <= i < |mro| ==> n !in Keys(mro[i].namespace);
  }

  lemma PersonFieldNames()
    ensures Keys(MergedFields(Person)) == ["name", "age", "income"]
  {
    PersonTables();
  }

  lemma PersonLookups()
    ensures Get(MergedFields(Person), "name") == Some(NameField)
    ensures Get(MergedFields(Person), "age") == Some(AgeField)
    ensures Get(MergedFields(Person), "income") == Some(IncomeField)
    ensures Get(MergedAnnotations(Person), "name") == Some(StrType)
    ensures Get(MergedAnnotations(Person), "age") == Some(IntType)
    ensures Get(MergedAnnotations(Person), "income") == Some(FloatType)
  {
    PersonTables();
    var fs, ann := MergedFields(Person), MergedAnnotations(Person);
    assert fs[0] == ("name", NameField) && ann[0] == ("name", StrType);
    assert fs[1] == ("age", AgeField) && ann[1] == ("age", IntType);
    assert fs[2] == ("income", IncomeField) && ann[2] == ("income", FloatType);
  }

  /** Each `Person` argument is checked against its own annotation and precondition. */
  lemma PersonArgErrors(v: PyValue)
    ensures ArgError(Person, "name", v, IsInstance) == if !v.PyStr? then Some(WrongType("name")) else None
    ensures ArgError(Person, "age", v, IsInstance) ==
              if !v.PyInt? then Some(WrongType("age"))
              else if !AgeInRange(v) then Some(PreconditionFailed("age")) else None
    ensures ArgError(Person, "income", v, IsInstance) ==
              if !v.PyFloat? then Some(WrongType("income"))
              else if !NonNegative(v) then Some(PreconditionFailed("income")) else None
  {
    PersonLookups();
    PersonBackingNamesFree();
    PersonGuardedArgErrors(v);
    assert CheckArg(Person, "name", v, IsInstance) == if !v.PyStr? then Some(WrongType("name")) else None;
  }

  lemma PersonGuardedArgErrors(v: PyValue)
    requires Get(MergedFields(Person), "age") == Some(AgeField) && Get(MergedAnnotations(Person), "age") == Some(IntType)
    requires Get(MergedFields(Person), "income") == Some(IncomeField)
    requires Get(MergedAnnotations(Person), "income") == Some(FloatType)
    ensures CheckArg(Person, "age", v, IsInstance) ==
              if !v.PyInt? then Some(WrongType("age"))
              else if !AgeInRange(v) then Some(PreconditionFailed("age")) else None
    ensures CheckArg(Person, "income", v, IsInstance) ==
              if !v.PyFloat? then Some(WrongType("income"))
              else if !NonNegative(v) then Some(PreconditionFailed("income")) else None
  {
  }

  lemma PersonNamesMatch(name: PyValue, age: PyValue, income: PyValue)
    ensures NamesMatch(Person, PersonArgs(name, age, income))
  {
    PersonTables();
    assert Keys(PersonArgs(name, age, income)) == Keys(MergedFields(Person));
  }

  /**
    `Person(name=.., age=.., income=..)` passes the name check, fails with the error of
    its first bad argument in call order, and otherwise stores each value under its
    backing name.
   */
  lemma PersonConstruct(name: PyValue, age: PyValue, income: PyValue)
    ensures var r := Construct(Person, PersonArgs(name, age, income), IsInstance);
            var en := ArgError(Person, "name", name, IsInstance);
            en.Some? ==> r == Err(en.value)
    ensures var r := Construct(Person, PersonArgs(name, age, income), IsInstance);
            var en, ea := ArgError(Person, "name", name, IsInstance), ArgError(Person, "age", age, IsInstance);
            en.None? && ea.Some? ==> r == Err(ea.value)
    ensures var r := Construct(Person, PersonArgs(name, age, income), IsInstance);
            var en, ea, ei := ArgError(Person, "name", name, IsInstance), ArgError(Person, "age", age, IsInstance),
                              ArgError(Person, "income", income, IsInstance);
            en.None? && ea.None? && ei.Some? ==> r == Err(ei.value)
    ensures var r := Construct(Person, PersonArgs(name, age, income), IsInstance);
            var en, ea, ei := ArgError(Person, "name", name, IsInstance), ArgError(Person, "age", age, IsInstance),
                              ArgError(Person, "income", income, IsInstance);
            en.None? && ea.None? && ei.None? ==>
              r.Ok? && r.value.cls == Person && r.value.attrs == [("_name", name), ("_age", age), ("_income", income)]
  {
    PersonNameFirst(name, age, income);
    PersonAgeSecond(name, age, income);
    PersonIncomeThird(name, age, income);
    if ArgError(Person, "name", name, IsInstance).None? && ArgError(Person, "age", age, IsInstance).None?
       && ArgError(Person, "income", income, IsInstance).None? {
      PersonSucceeds(name, age, income);
      PersonSlots(name, age, income);
    }
  }

  lemma PersonNameFirst(name: PyValue, age: PyValue, income: PyValue)
    ensures var en := ArgError(Person, "name", name, IsInstance);
            en.Some? ==> Construct(Person, PersonArgs(name, age, income), IsInstance) == Err(en.value)
  {
    if ArgError(Person, "name", name, IsInstance).Some? {
      assert PersonArgs(name, age, income)[0] == ("name", name);
      PersonFailsAt(name, age, income, 0);
    }
  }

  lemma PersonAgeSecond(name: PyValue, age: PyValue, income: PyValue)
    ensures var en, ea := ArgError(Person, "name", name, IsInstance), ArgError(Person, "age", age, IsInstance);
            en.None? && ea.Some? ==> Construct(Person, PersonArgs(name, age, income), IsInstance) == Err(ea.value)
  {
    if ArgError(Person, "name", name, IsInstance).None? && ArgError(Person, "age", age, IsInstance).Some? {
      var kwargs := PersonArgs(name, age, income);
      assert kwargs[0] == ("name", name) && kwargs[1] == ("age", age);
      PersonFailsAt(name, age, income, 1);
    }
  }

  lemma PersonIncomeThird(name: PyValue, age: PyValue, income: PyValue)
    ensures var en, ea, ei := ArgError(Person, "name", name, IsInstance), ArgError(Person, "age", age, IsInstance),
                              ArgError(Person, "income", income, IsInstance);
            en.None? && ea.None? && ei.Some? ==> Construct(Person, PersonArgs(name, age, income), IsInstance) == Err(ei.value)
  {
    if ArgError(Person, "name", name, IsInstance).None? && ArgError(Person, "age", age, IsInstance).None?
       && ArgError(Person, "income", income, IsInstance).Some? {
      var kwargs := PersonArgs(name, age, income);
      assert kwargs[0] == ("name", name) && kwargs[1] == ("age", age) && kwargs[2] == ("income", income);
      PersonFailsAt(name, age, income, 2);
    }
  }

  lemma PersonFailsAt(name: PyValue, age: PyValue, income: PyValue, j: nat)
    requires j < 3
    requires var kwargs := PersonArgs(name, age, income);
             && ArgError(Person, kwargs[j].0, kwargs[j].1, IsInstance).Some?
             && forall l :: 0 <= l < j ==> ArgError(Person, kwargs[l].0, kwargs[l].1, IsInstance).None?
    ensures var kwargs := PersonArgs(name, age, income);
            Construct(Person, kwargs, IsInstance) == Err(ArgError(Person, kwargs[j].0, kwargs[j].1, IsInstance).value)
  {
    PersonNamesMatch(name, age, income);
    ConstructOutcome(Person, PersonArgs(name, age, income), IsInstance);
  }

  lemma PersonSucceeds(name: PyValue, age: PyValue, income: PyValue)
    requires ArgError(Person, "name", name, IsInstance).None?
    requires ArgError(Person, "age", age, IsInstance).None?
    requires ArgError(Person, "income", income, IsInstance).None?
    ensures Construct(Person, PersonArgs(name, age, income), IsInstance)
            == Ok(Instance(Person, Slots(PersonArgs(name, age, income))))
  {
    var kwargs := PersonArgs(name, age, income);
    PersonNamesMatch(name, age, income);
    ConstructOutcome(Person, kwargs, IsInstance);
    assert kwargs[0] == ("name", name) && kwargs[1] == ("age", age) && kwargs[2] == ("income", income);
    assert |kwargs| == 3;
    forall j | 0 <= j < |kwargs|
      ensures ArgError(Person, kwargs[j].0, kwargs[j].1, IsInstance).None?
    {
      assert j == 0 || j == 1 || j == 2;
    }
  }

  lemma PersonSlots(name: PyValue, age: PyValue, income: PyValue)
    ensures Slots(PersonArgs(name, age, income)) == [("_name", name), ("_age", age), ("_income", income)]
  {
    var kwargs := PersonArgs(name, age, income);
    assert kwargs[0] == ("name", name) && kwargs[1] == ("age", age) && kwargs[2] == ("income", income);
    assert PrivateName("name") == "_name" && PrivateName("age") == "_age" && PrivateName("income") == "_income";
  }

  /** `Person(name="JAMES", age=110, income=24000.0)` succeeds. */
  lemma JamesAt110IsAccepted()
    ensures Construct(Person, PersonArgs(PyStr("JAMES"), PyInt(110), PyFloat(24000.0)), IsInstance).Ok?
  {
    PersonConstruct(PyStr("JAMES"), PyInt(110), PyFloat(24000.0));
    PersonArgErrors(PyStr("JAMES"));
    PersonArgErrors(PyInt(110));
    PersonArgErrors(PyFloat(24000.0));
  }

  /** An age of 160 or of -1 fails the age precondition, raising `TypeError`. */
  lemma AgeOutOfRangeIsRejected()
    ensures Construct(Person, PersonArgs(PyStr("JAMES"), PyInt(160), PyFloat(24000.0)), IsInstance)
            == Err(PreconditionFailed("age"))
    ensures Construct(Person, PersonArgs(PyStr("JAMES"), PyInt(-1), PyFloat(24000.0)), IsInstance)
            == Err(PreconditionFailed("age"))
    ensures Raised(PreconditionFailed("age")) == TypeError
  {
    PersonConstruct(PyStr("JAMES"), PyInt(160), PyFloat(24000.0));
    PersonConstruct(PyStr("JAMES"), PyInt(-1), PyFloat(24000.0));
    PersonArgErrors(PyStr("JAMES"));
    PersonArgErrors(PyInt(160));
    PersonArgErrors(PyInt(-1));
    PersonArgErrors(PyFloat(24000.0));
  }

  /** The string "150" is not an `int`: a type error on `age`, raising `TypeError`. */
  lemma StringAgeIsRejected()
    ensures Construct(Person, PersonArgs(PyStr("JAMES"), PyStr("150"), PyFloat(24000.0)), IsInstance)
            == Err(WrongType("age"))
    ensures Raised(WrongType("age")) == TypeError
  {
    PersonConstruct(PyStr("JAMES"), PyStr("150"), PyFloat(24000.0));
    PersonArgErrors(PyStr("JAMES"));
    PersonArgErrors(PyStr("150"));
  }

  /** `Person(name="JAMES")` misses two fields: it fails the name check, raising `TypeError`. */
  lemma MissingFieldsAreRejected()
    ensures Construct(Person, [("name", PyStr("JAMES"))], IsInstance) == Err(ArgumentMismatch)
    ensures Raised(ArgumentMismatch) == TypeError
  {
    PersonFieldNames();
    MissingFieldFails(Person, [("name", PyStr("JAMES"))], IsInstance, "age");
  }

  /**
    `Person(name="JAMES", age="150", wealth=24000.0)` passes an unknown name: it fails
    the name check before the ill-typed age is looked at.
   */
  lemma UnknownNameIsRejected()
    ensures Construct(Person, [("name", PyStr("JAMES")), ("age", PyStr("150")), ("wealth", PyFloat(24000.0))], IsInstance)
            == Err(ArgumentMismatch)
  {
    var kwargs: Dict<PyValue> := [("name", PyStr("JAMES")), ("age", PyStr("150")), ("wealth", PyFloat(24000.0))];
    PersonFieldNames();
    assert Keys(kwargs)[2] == "wealth";
    UnknownNameFails(Person, kwargs, IsInstance, "wealth");
  }

  /** `james = Person(name="JAMES", age=34, income=24000.0)` reads its age back and refuses a new one. */
  lemma JamesProperties()
    ensures var r := Construct(Person, PersonArgs(PyStr("JAMES"), PyInt(34), PyFloat(24000.0)), IsInstance);
            && r.Ok?
            && GetAttr(r.value, "age") == Ok(PyInt(34))
            && SetAttr(r.value, "age", PyInt(32)) == Err(ReadOnlyField("age"))
            && Raised(ReadOnlyField("age")) == AttributeError
  {
    var kwargs := PersonArgs(PyStr("JAMES"), PyInt(34), PyFloat(24000.0));
    JamesIsAccepted();
    PersonOwnFields();
    assert Keys(OwnFields(PersonDecl))[1] == "age";
    OwnFieldIsDescriptor(Person, "age");
    FieldsStayReadOnly(Person, kwargs, IsInstance, "age", PyInt(32));
    assert kwargs[1] == ("age", PyInt(34));
  }

  lemma JamesIsAccepted()
    ensures Construct(Person, PersonArgs(PyStr("JAMES"), PyInt(34), PyFloat(24000.0)), IsInstance).Ok?
  {
    PersonConstruct(PyStr("JAMES"), PyInt(34), PyFloat(24000.0));
    PersonArgErrors(PyStr("JAMES"));
    PersonArgErrors(PyInt(34));
    PersonArgErrors(PyFloat(24000.0));
  }

  /**
    `str(james)`, given the `repr` of the three stored values: the class name, then
    each field's label and value in declaration order, line by line as the test
    writes them.
   */
  lemma JamesRendering(repr: PyValue -> string)
    requires repr(PyStr("JAMES")) == "'JAMES'" && repr(PyInt(34)) == "34" && repr(PyFloat(24000.0)) == "24000.0"
    ensures var r := Construct(Person, PersonArgs(PyStr("JAMES"), PyInt(34), PyFloat(24000.0)), IsInstance);
            r.Ok? && Render(r.value, repr)
                     == Ok("Person(\n"
                           + "  # The name\n" + "  name='JAMES'\n"
                           + "  # The person's age\n" + "  age=34\n"
                           + "  # The person's income\n" + "  income=24000.0\n"
                           + ")")
  {
    JamesIsAccepted();
    RenderOfConstructed(Person, PersonArgs(PyStr("JAMES"), PyInt(34), PyFloat(24000.0)), IsInstance, repr);
    JamesBlocks(repr);
    NameBlock();
    AgeBlock();
    IncomeBlock();
    JamesLayout(Block("The name", "name", "'JAMES'"), Block("The person's age", "age", "34"),
                Block("The person's income", "income", "24000.0"));
  }

  lemma JamesLayout(b0: string, b1: string, b2: string)
    requires b0 == "  # The name\n" + "  name='JAMES'\n"
    requires b1 == "  # The person's age\n" + "  age=34\n"
    requires b2 == "  # The person's income\n" + "  income=24000.0\n"
    ensures Layout("Person", [b0, b1, b2])
            == "Person(\n"
               + "  # The name\n" + "  name='JAMES'\n"
               + "  # The person's age\n" + "  age=34\n"
               + "  # The person's income\n" + "  income=24000.0\n"
               + ")"
  {
    LayoutOfThree("Person", b0, b1, b2);
    assert "Person" + "(\n" == "Person(\n";
    RegroupLines("Person(\n", "  # The name\n", "  name='JAMES'\n", "  # The person's age\n", "  age=34\n",
                 "  # The person's income\n", "  income=24000.0\n");
  }

  lemma JamesBlocks(repr: PyValue -> string)
    requires repr(PyStr("JAMES")) == "'JAMES'" && repr(PyInt(34)) == "34" && repr(PyFloat(24000.0)) == "24000.0"
    ensures SuppliedBlocks(OwnFields(PersonDecl), PersonArgs(PyStr("JAMES"), PyInt(34), PyFloat(24000.0)), repr)
            == [Block("The name", "name", "'JAMES'"), Block("The person's age", "age", "34"),
                Block("The person's income", "income", "24000.0")]
  {
    var kwargs := PersonArgs(PyStr("JAMES"), PyInt(34), PyFloat(24000.0));
    PersonOwnFields();
    var fs := OwnFields(PersonDecl);
    assert kwargs[0].0 == "name" && kwargs[1].0 == "age" && kwargs[2].0 == "income";
    assert Get(kwargs, "name") == Some(PyStr("JAMES"));
    assert Get(kwargs, "age") == Some(PyInt(34));
    assert Get(kwargs, "income") == Some(PyFloat(24000.0));
    assert fs[2..] == [("income", IncomeField)] && fs[1..] == [("age", AgeField)] + fs[2..];
    assert fs[2..][1..] == [] && fs[1..][1..] == fs[2..] && fs[1..] == fs[1..];
    assert SuppliedBlocks(fs[2..], kwargs, repr) == [Block("The person's income", "income", "24000.0")];
    assert SuppliedBlocks(fs[1..], kwargs, repr)
           == [Block("The person's age", "age", "34")] + SuppliedBlocks(fs[2..], kwargs, repr);
  }

  const HabitatField: Field<PyValue> := Field("The habitat", Some(KnownHabitat))
  const WeightField: Field<PyValue> := Field("The animals weight (kg)", Some(NonNegative))
  const BarkField: Field<PyValue> := Field("Sound of bark", None)

  const NamedDecl: ClassDef<PyValue, PyType> :=
    ClassDef("Named",
             [("__doc__", PlainAttr(PyStr("A base class for things with names"))),
              ("name", FieldAttr(NameField))],
             [("name", StrType)],
             true)

  const AnimalDecl: ClassDef<PyValue, PyType> :=
    ClassDef("Animal",
             [("__doc__", PlainAttr(PyStr("An animal"))),
              ("habitat", FieldAttr(HabitatField)),
              ("weight", FieldAttr(WeightField))],
             [("habitat", StrType), ("weight", FloatType)],
             true)

  const DogDecl: ClassDef<PyValue, PyType> :=
    ClassDef("Dog",
             [("__doc__", PlainAttr(PyStr("A type of animal"))),
              ("bark", FieldAttr(BarkField))],
             [("bark", StrType)],
             true)

  const Named: RecordClass<PyValue, PyType> := Lineage(NamedDecl, [RecordBase, ObjectClass])
  const Animal: RecordClass<PyValue, PyType> := Lineage(AnimalDecl, [NamedDecl, RecordBase, ObjectClass])
  const Dog: RecordClass<PyValue, PyType> := Lineage(DogDecl, [AnimalDecl, NamedDecl, RecordBase, ObjectClass])

  function DogArgs(name: PyValue, habitat: PyValue, weight: PyValue, bark: PyValue): Dict<PyValue>
  {
    [("name", name), ("habitat", habitat), ("weight", weight), ("bark", bark)]
  }

  lemma DogOwnFields()
    ensures OwnFields(DogDecl) == [("bark", BarkField)]
    ensures OwnFields(AnimalDecl) == [("habitat", HabitatField), ("weight", WeightField)]
    ensures OwnFields(NamedDecl) == [("name", NameField)]
  {
    FieldEntriesCons(DogDecl.namespace[1], []);
    FieldEntriesCons(DogDecl.namespace[0], DogDecl.namespace[1..]);
    assert DogDecl.namespace == [DogDecl.namespace[0]] + DogDecl.namespace[1..];
    var weight := [("weight", FieldAttr(WeightField))];
    var habitat := [("habitat", FieldAttr(HabitatField))] + weight;
    FieldEntriesCons(weight[0], []);
    FieldEntriesCons(habitat[0], weight);
    FieldEntriesCons(AnimalDecl.namespace[0], habitat);
    assert AnimalDecl.namespace == [AnimalDecl.namespace[0]] + habitat;
    FieldEntriesCons(NamedDecl.namespace[1], []);
    FieldEntriesCons(NamedDecl.namespace[0], NamedDecl.namespace[1..]);
    assert NamedDecl.namespace == [NamedDecl.namespace[0]] + NamedDecl.namespace[1..];
  }

  /** `Dog` collects its own field first, then those of `Animal`, then that of `Named`. */
  lemma DogTables()
    ensures MergedFields(Dog)
            == [("bark", BarkField), ("habitat", HabitatField), ("weight", WeightField), ("name", NameField)]
    ensures MergedAnnotations(Dog) == [("bark", StrType), ("habitat", StrType), ("weight", FloatType), ("name", StrType)]
  {
    DogFieldTable();
    DogAnnotationTable();
  }

  lemma DogFieldTable()
    ensures MergedFields(Dog)
            == [("bark", BarkField), ("habitat", HabitatField), ("weight", WeightField), ("name", NameField)]
  {
    var merged := [("bark", BarkField), ("habitat", HabitatField), ("weight", WeightField), ("name", NameField)];
    DogFieldLevels();
    DogOwnFields();
    FlattenFive(OwnFields(DogDecl), OwnFields(AnimalDecl), OwnFields(NamedDecl));
    assert Flatten(FieldTables(Dog)) == merged;
    FromPairsOfDict(merged);
    assert MergedFields(Dog) == FromPairs(Flatten(FieldTables(Dog)));
  }

  lemma DogFieldLevels()
    ensures FieldTables(Dog) == [OwnFields(DogDecl), OwnFields(AnimalDecl), OwnFields(NamedDecl), [], []]
  {
    assert Dog.Mro() == [DogDecl, AnimalDecl, NamedDecl, RecordBase, ObjectClass];
    assert OwnFields(RecordBase) == [] && OwnFields(ObjectClass) == [];
  }

  lemma DogAnnotationTable()
    ensures MergedAnnotations(Dog) == [("bark", StrType), ("habitat", StrType), ("weight", FloatType), ("name", StrType)]
  {
    var merged := [("bark", StrType), ("habitat", StrType), ("weight", FloatType), ("name", StrType)];
    DogAnnotationLevels();
    FlattenFive(DogDecl.annotations, AnimalDecl.annotations, NamedDecl.annotations);
    assert Flatten(AnnotationTables(Dog)) == merged;
    FromPairsOfDict(merged);
    assert MergedAnnotations(Dog) == FromPairs(Flatten(AnnotationTables(Dog)));
  }

  lemma DogAnnotationLevels()
    ensures AnnotationTables(Dog) == [DogDecl.annotations, AnimalDecl.annotations, NamedDecl.annotations, [], []]
  {
    assert Dog.Mro() == [DogDecl, AnimalDecl, NamedDecl, RecordBase, ObjectClass];
  }

  /** No backing name `_name`, `_habitat`, `_weight`, `_bark` is bound along `Dog`'s MRO. */
  lemma DogBackingNamesFree()
    ensures !IsFieldDescriptor(Dog, PrivateName("name"))
    ensures !IsFieldDescriptor(Dog, PrivateName("habitat"))
    ensures !IsFieldDescriptor(Dog, PrivateName("weight"))
    ensures !IsFieldDescriptor(Dog, PrivateName("bark"))
  {
    assert PrivateName("name") == "_name" && PrivateName("habitat") == "_habitat";
    assert PrivateName("weight") == "_weight" && PrivateName("bark") == "_bark";
    UnboundOnDog("_name");
    UnboundOnDog("_habitat");
    UnboundOnDog("_weight");
    UnboundOnDog("_bark");
  }

  /** A name none of `Dog`'s classes binds resolves to nothing. */
  lemma UnboundOnDog(n: string)
    requires n !in ["__doc__", "bark", "habitat", "weight", "name"]
    ensures LookupIn(Dog.Mro(), n).None?
  {
    var mro := Dog.Mro();
    assert mro == [DogDecl, AnimalDecl, NamedDecl, RecordBase, ObjectClass];
    assert Keys(DogDecl.namespace) == ["__doc__", "bark"];
    assert Keys(AnimalDecl.namespace) == ["__doc__", "habitat", "weight"];
    assert Keys(NamedDecl.namespace) == ["__doc__", "name"];
    assert forall i :: 0 <= i < |mro| ==> n !in Keys(mro[i].namespace);
  }

  lemma DogLookups()
    ensures Get(MergedFields(Dog), "name") == Some(NameField)
    ensures Get(MergedFields(Dog), "habitat") == Some(HabitatField)
    ensures Get(MergedFields(Dog), "weight") == Some(WeightField)
    ensures Get(MergedFields(Dog), "bark") == Some(BarkField)
    ensures Get(MergedAnnotations(Dog), "name") == Some(StrType)
    ensures Get(MergedAnnotations(Dog), "habitat") == Some(StrType)
    ensures Get(MergedAnnotations(Dog), "weight") == Some(FloatType)
    ensures Get(MergedAnnotations(Dog), "bark") == Some(StrType)
  {
    DogTables();
    var fs, ann := MergedFields(Dog), MergedAnnotations(Dog);
    assert fs[0] == ("bark", BarkField) && ann[0] == ("bark", StrType);
    assert fs[1] == ("habitat", HabitatField) && ann[1] == ("habitat", StrType);
    assert fs[2] == ("weight", WeightField) && ann[2] == ("weight", FloatType);
    assert fs[3] == ("name", NameField) && ann[3] == ("name", StrType);
  }

  /** Each `Dog` argument, inherited or not, is checked against its declaring class's annotation and precondition. */
  lemma DogArgErrors(v: PyValue)
    ensures ArgError(Dog, "name", v, IsInstance) == if !v.PyStr? then Some(WrongType("name")) else None
    ensures ArgError(Dog, "habitat", v, IsInstance) ==
              if !v.PyStr? then Some(WrongType("habitat"))
              else if !KnownHabitat(v) then Some(PreconditionFailed("habitat")) else None
    ensures ArgError(Dog, "weight", v, IsInstance) ==
              if !v.PyFloat? then Some(WrongType("weight"))
              else if !NonNegative(v) then Some(PreconditionFailed("weight")) else None
    ensures ArgError(Dog, "bark", v, IsInstance) == if !v.PyStr? then Some(WrongType("bark")) else None
  {
    DogLookups();
    DogBackingNamesFree();
    DogPlainArgErrors(v);
    DogGuardedArgErrors(v);
  }

  lemma DogPlainArgErrors(v: PyValue)
    requires Get(MergedFields(Dog), "name") == Some(NameField) && Get(MergedAnnotations(Dog), "name") == Some(StrType)
    requires Get(MergedFields(Dog), "bark") == Some(BarkField) && Get(MergedAnnotations(Dog), "bark") == Some(StrType)
    ensures CheckArg(Dog, "name", v, IsInstance) == if !v.PyStr? then Some(WrongType("name")) else None
    ensures CheckArg(Dog, "bark", v, IsInstance) == if !v.PyStr? then Some(WrongType("bark")) else None
  {
  }

  lemma DogGuardedArgErrors(v: PyValue)
    requires Get(MergedFields(Dog), "habitat") == Some(HabitatField)
    requires Get(MergedAnnotations(Dog), "habitat") == Some(StrType)
    requires Get(MergedFields(Dog), "weight") == Some(WeightField)
    requires Get(MergedAnnotations(Dog), "weight") == Some(FloatType)
    ensures CheckArg(Dog, "habitat", v, IsInstance) ==
              if !v.PyStr? then Some(WrongType("habitat"))
              else if !KnownHabitat(v) then Some(PreconditionFailed("habitat")) else None
    ensures CheckArg(Dog, "weight", v, IsInstance) ==
              if !v.PyFloat? then Some(WrongType("weight"))
              else if !NonNegative(v) then Some(PreconditionFailed("weight")) else None
  {
  }

  lemma DogNamesMatch(name: PyValue, habitat: PyValue, weight: PyValue, bark: PyValue)
    ensures NamesMatch(Dog, DogArgs(name, habitat, weight, bark))
  {
    DogArgNames(name, habitat, weight, bark);
    DogFieldNames();
  }

  lemma DogArgNames(name: PyValue, habitat: PyValue, weight: PyValue, bark: PyValue)
    ensures KeySet(DogArgs(name, habitat, weight, bark)) == {"name", "habitat", "weight", "bark"}
  {
    KeySetOfFour(DogArgs(name, habitat, weight, bark));
  }

  lemma DogFieldNames()
    ensures KeySet(MergedFields(Dog)) == {"name", "habitat", "weight", "bark"}
  {
    DogTables();
    KeySetOfFour(MergedFields(Dog));
  }

  lemma DogSucceeds(name: PyValue, habitat: PyValue, weight: PyValue, bark: PyValue)
    requires ArgError(Dog, "name", name, IsInstance).None?
    requires ArgError(Dog, "habitat", habitat, IsInstance).None?
    requires ArgError(Dog, "weight", weight, IsInstance).None?
    requires ArgError(Dog, "bark", bark, IsInstance).None?
    ensures Construct(Dog, DogArgs(name, habitat, weight, bark), IsInstance).Ok?
  {
    DogNamesMatch(name, habitat, weight, bark);
    FourValid(Dog, DogArgs(name, habitat, weight, bark), ("name", name), ("habitat", habitat), ("weight", weight),
              ("bark", bark), IsInstance);
  }

  lemma FourValid<V, T>(c: RecordClass<V, T>, kwargs: Dict<V>, a0: (string, V), a1: (string, V), a2: (string, V),
                        a3: (string, V), isInstance: (V, T) -> bool)
    requires kwargs == [a0, a1, a2, a3] && NamesMatch(c, kwargs)
    requires ArgError(c, a0.0, a0.1, isInstance).None? && ArgError(c, a1.0, a1.1, isInstance).None?
    requires ArgError(c, a2.0, a2.1, isInstance).None? && ArgError(c, a3.0, a3.1, isInstance).None?
    ensures Construct(c, kwargs, isInstance).Ok?
  {
    FourArgsValid(c, kwargs, a0, a1, a2, a3, isInstance);
    ValidArgumentsConstruct(c, kwargs, isInstance);
  }

  lemma FourArgsValid<V, T>(c: RecordClass<V, T>, kwargs: Dict<V>, a0: (string, V), a1: (string, V), a2: (string, V),
                            a3: (string, V), isInstance: (V, T) -> bool)
    requires kwargs == [a0, a1, a2, a3]
    requires ArgError(c, a0.0, a0.1, isInstance).None? && ArgError(c, a1.0, a1.1, isInstance).None?
    requires ArgError(c, a2.0, a2.1, isInstance).None? && ArgError(c, a3.0, a3.1, isInstance).None?
    ensures forall j :: 0 <= j < |kwargs| ==> ArgError(c, kwargs[j].0, kwargs[j].1, isInstance).None?
  {
    var ok := (a: (string, V)) => ArgError(c, a.0, a.1, isInstance).None?;
    FourHold(kwargs, ok, a0, a1, a2, a3);
  }

  /** `mike = Dog(name="mike", habitat="land", weight=50., bark="ARF")` is accepted. */
  lemma MikeIsAccepted()
    ensures Construct(Dog, DogArgs(PyStr("mike"), PyStr("land"), PyFloat(50.0), PyStr("ARF")), IsInstance).Ok?
  {
    DogArgErrors(PyStr("mike"));
    DogArgErrors(PyStr("land"));
    DogArgErrors(PyFloat(50.0));
    DogArgErrors(PyStr("ARF"));
    DogSucceeds(PyStr("mike"), PyStr("land"), PyFloat(50.0), PyStr("ARF"));
  }

  /** `mike.weight` reads the inherited field's stored value (the test compares it with `50`, equal to `50.0`). */
  lemma MikeWeight()
    ensures var r := Construct(Dog, DogArgs(PyStr("mike"), PyStr("land"), PyFloat(50.0), PyStr("ARF")), IsInstance);
            r.Ok? && GetAttr(r.value, "weight") == Ok(PyFloat(50.0))
  {
    var kwargs := DogArgs(PyStr("mike"), PyStr("land"), PyFloat(50.0), PyStr("ARF"));
    MikeIsAccepted();
    WeightIsDescriptor();
    ReadBack(Dog, kwargs, IsInstance, "weight");
    assert kwargs[2] == ("weight", PyFloat(50.0));
  }

  /** `weight`, declared on `Animal`, is a field descriptor of `Dog`. */
  lemma WeightIsDescriptor()
    ensures IsFieldDescriptor(Dog, "weight")
  {
    var mro := Dog.Mro();
    assert mro[0] == DogDecl && mro[1] == AnimalDecl;
    assert Keys(DogDecl.namespace) == ["__doc__", "bark"];
    assert Keys(AnimalDecl.namespace)[2] == "weight";
    assert AnimalDecl.namespace[2] == ("weight", FieldAttr(WeightField));
    assert LookupIn(mro, "weight") == Some(FieldAttr(WeightField));
  }

  /** A `Dog` given only its own field misses the inherited ones and fails the name check. */
  lemma DogNeedsInheritedFields()
    ensures Construct(Dog, [("bark", PyStr("ARF"))], IsInstance) == Err(ArgumentMismatch)
  {
    DogTables();
    assert Keys(MergedFields(Dog))[3] == "name";
    assert "name" !in KeySet([("bark", PyStr("ARF"))]);
  }

  /** `str(mike)` shows only the field `Dog` itself declares. */
  lemma MikeRendering(repr: PyValue -> string)
    requires repr(PyStr("ARF")) == "'ARF'"
    ensures var r := Construct(Dog, DogArgs(PyStr("mike"), PyStr("land"), PyFloat(50.0), PyStr("ARF")), IsInstance);
            r.Ok? && Render(r.value, repr) == Ok("Dog(\n" + "  # Sound of bark\n" + "  bark='ARF'\n" + ")")
  {
    var kwargs := DogArgs(PyStr("mike"), PyStr("land"), PyFloat(50.0), PyStr("ARF"));
    MikeIsAccepted();
    RenderOfConstructed(Dog, kwargs, IsInstance, repr);
    MikeBlocks(repr);
    BarkBlock();
    MikeLayout(Block("Sound of bark", "bark", "'ARF'"));
  }

  lemma MikeLayout(b: string)
    requires b == "  # Sound of bark\n" + "  bark='ARF'\n"
    ensures Layout("Dog", [b]) == "Dog(\n" + "  # Sound of bark\n" + "  bark='ARF'\n" + ")"
  {
    LayoutOfOne("Dog", b);
    assert "Dog" + "(\n" == "Dog(\n";
  }

  lemma MikeBlocks(repr: PyValue -> string)
    requires repr(PyStr("ARF")) == "'ARF'"
    ensures SuppliedBlocks(OwnFields(DogDecl), DogArgs(PyStr("mike"), PyStr("land"), PyFloat(50.0), PyStr("ARF")), repr)
            == [Block("Sound of bark", "bark", "'ARF'")]
  {
    var kwargs := DogArgs(PyStr("mike"), PyStr("land"), PyFloat(50.0), PyStr("ARF"));
    DogOwnFields();
    var fs := OwnFields(DogDecl);
    assert kwargs[3] == ("bark", PyStr("ARF"));
    assert Get(kwargs, "bark") == Some(PyStr("ARF"));
    assert fs[1..] == [];
  }

  /**
    A hypothetical subclass `Puppy(Dog)` that redeclares
    `weight: float = Field(label="The puppy's weight")` without a precondition. The
    merged table lets the most ancestral declaration win, so construction still
    checks `Animal`'s field and its precondition.
   */
  const PuppyWeightField: Field<PyValue> := Field("The puppy's weight", None)
  const PuppyDecl: ClassDef<PyValue, PyType> :=
    ClassDef("Puppy", [("weight", FieldAttr(PuppyWeightField))], [("weight", FloatType)], true)
  const Puppy: RecordClass<PyValue, PyType> :=
    Lineage(PuppyDecl, [DogDecl, AnimalDecl, NamedDecl, RecordBase, ObjectClass])

  lemma RedeclaredFieldKeepsAncestralCheck()
    ensures OwnFields(PuppyDecl) == [("weight", PuppyWeightField)]
    ensures Get(MergedFields(Puppy), "weight") == Some(WeightField)
    ensures CheckArg(Puppy, "weight", PyFloat(-1.0), IsInstance) == Some(PreconditionFailed("weight"))
  {
    PuppyWeightLookup();
    PuppyWeightAnnotation();
  }

  lemma PuppyWeightLookup()
    ensures OwnFields(PuppyDecl) == [("weight", PuppyWeightField)]
    ensures Get(MergedFields(Puppy), "weight") == Some(WeightField)
  {
    PuppyLevels();
    FieldEntriesCons(PuppyDecl.namespace[0], []);
    assert PuppyDecl.namespace == [PuppyDecl.namespace[0]] + [];
    DogOwnFields();
    assert Keys(OwnFields(AnimalDecl))[1] == "weight";
    assert Get(OwnFields(AnimalDecl), "weight") == Some(WeightField);
    assert OwnFields(RecordBase) == [] && OwnFields(ObjectClass) == [];
    FieldDeclaredLast(Puppy, "weight", 2);
  }

  lemma PuppyWeightAnnotation()
    ensures Get(MergedAnnotations(Puppy), "weight") == Some(FloatType)
  {
    PuppyLevels();
    assert Keys(AnimalDecl.annotations)[1] == "weight";
    assert Get(AnimalDecl.annotations, "weight") == Some(FloatType);
    assert Keys(NamedDecl.annotations) == ["name"];
    AnnotationDeclaredLast(Puppy, "weight", 2);
  }

  lemma PuppyLevels()
    ensures Puppy.Mro() == [PuppyDecl, DogDecl, AnimalDecl, NamedDecl, RecordBase, ObjectClass]
  {
  }

  lemma FieldDeclaredLast<V, T>(c: RecordClass<V, T>, n: string, i: nat)
    requires i < |c.Mro()| && c.Mro()[i].isRecord && n in Keys(OwnFields(c.Mro()[i]))
    requires forall j :: i < j < |c.Mro()| ==> n !in Keys(OwnFields(c.Mro()[j]))
    ensures Get(MergedFields(c), n) == Get(OwnFields(c.Mro()[i]), n)
  {
    MergedFieldsLookup(c, n);
  }

  lemma AnnotationDeclaredLast<V, T>(c: RecordClass<V, T>, n: string, i: nat)
    requires i < |c.Mro()| && n in Keys(c.Mro()[i].annotations)
    requires forall j :: i < j < |c.Mro()| ==> n !in Keys(c.Mro()[j].annotations)
    ensures Get(MergedAnnotations(c), n) == Get(c.Mro()[i].annotations, n)
  {
    MergedAnnotationsLookup(c, n);
  }

  /**
    Two hypothetical plain mixins, not made by `RecordMeta`, whose bodies bind
    `tag: str = Field(label="The tag")`; the second one also binds a class attribute
    `_tag = "dflt"`. The record class `Note(Record, Tagged)` declares
    `text: str = Field(label="The text")`. A plain mixin has no `_fields`, so the
    field table of `Note` holds `text` alone.
   */
  const TagField: Field<PyValue> := Field("The tag", None)
  const TextField: Field<PyValue> := Field("The text", None)
  const TaggedDecl: ClassDef<PyValue, PyType> :=
    ClassDef("Tagged", [("tag", FieldAttr(TagField))], [("tag", StrType)], false)
  const TaggedWithDefaultDecl: ClassDef<PyValue, PyType> :=
    ClassDef("Tagged", [("tag", FieldAttr(TagField)), ("_tag", PlainAttr(PyStr("dflt")))], [("tag", StrType)], false)
  const NoteDecl: ClassDef<PyValue, PyType> :=
    ClassDef("Note", [("text", FieldAttr(TextField))], [("text", StrType)], true)

  /** The mixin, with or without the class attribute `_tag`. */
  function Tagged(withDefault: bool): ClassDef<PyValue, PyType>
  {
    if withDefault then TaggedWithDefaultDecl else TaggedDecl
  }

  /** `Note(Record, Tagged)`, for either mixin. */
  function NoteOver(withDefault: bool): RecordClass<PyValue, PyType>
  {
    Lineage(NoteDecl, [RecordBase, Tagged(withDefault), ObjectClass])
  }

  /** The arguments of `Note(text="a")`. */
  const NoteArgs: Dict<PyValue> := [("text", PyStr("a"))]

  /**
    `Note(text="a")` succeeds without `tag`, since the mixin's `Field` is not in the
    field table; `tag` is still a descriptor of the instance, and reading it raises
    `AttributeError` because `_tag` is bound nowhere.
   */
  lemma MixinFieldIsNotConstructed()
    ensures MergedFields(NoteOver(false)) == [("text", TextField)]
    ensures IsFieldDescriptor(NoteOver(false), "tag")
    ensures var r := Construct(NoteOver(false), NoteArgs, IsInstance);
            && r.Ok?
            && GetAttr(r.value, "tag") == Err(NoAttribute("_tag"))
            && Raised(GetAttr(r.value, "tag").error) == AttributeError
  {
    NoteFieldTable(false);
    TagIsDescriptor(false);
    NoteIsAccepted(false);
    TagReadFails();
  }

  /**
    With the mixin that also binds `_tag = "dflt"`, the same `Note(text="a")`
    succeeds, and reading `tag` finds the class attribute `_tag`: the descriptor's
    `getattr(obj, "_tag")` falls back to the class.
   */
  lemma MixinBackingDefault()
    ensures MergedFields(NoteOver(true)) == [("text", TextField)]
    ensures IsFieldDescriptor(NoteOver(true), "tag")
    ensures var r := Construct(NoteOver(true), NoteArgs, IsInstance);
            && r.Ok?
            && GetAttr(r.value, "tag") == Ok(PyStr("dflt"))
  {
    NoteFieldTable(true);
    TagIsDescriptor(true);
    NoteIsAccepted(true);
    TagReadsDefault();
  }

  lemma NoteIsAccepted(withDefault: bool)
    ensures Construct(NoteOver(withDefault), NoteArgs, IsInstance).Ok?
  {
    NoteNamesMatch(withDefault);
    NoteTextIsValid(withDefault);
    assert NoteArgs[0] == ("text", PyStr("a"));
    ValidArgumentsConstruct(NoteOver(withDefault), NoteArgs, IsInstance);
  }

  lemma NoteNamesMatch(withDefault: bool)
    ensures NamesMatch(NoteOver(withDefault), NoteArgs)
  {
    NoteFieldTable(withDefault);
    KeySetOfOne(NoteArgs);
    KeySetOfOne(MergedFields(NoteOver(withDefault)));
  }

  lemma TagReadFails()
    requires Construct(NoteOver(false), NoteArgs, IsInstance).Ok?
    ensures GetAttr(Construct(NoteOver(false), NoteArgs, IsInstance).value, "tag") == Err(NoAttribute("_tag"))
  {
    var note := NoteOver(false);
    TagIsDescriptor(false);
    TagNotAField(false);
    TagBackingName();
    TagBackingUnbound();
    ReadBack(note, NoteArgs, IsInstance, "tag");
  }

  lemma TagBackingUnbound()
    ensures LookupIn(NoteOver(false).Mro(), "_tag").None?
  {
    NoteLevels(false);
  }

  lemma TagReadsDefault()
    requires Construct(NoteOver(true), NoteArgs, IsInstance).Ok?
    ensures GetAttr(Construct(NoteOver(true), NoteArgs, IsInstance).value, "tag") == Ok(PyStr("dflt"))
  {
    var note := NoteOver(true);
    TagIsDescriptor(true);
    TagNotAField(true);
    TagBackingName();
    TagDefaultBinding();
    ReadBack(note, NoteArgs, IsInstance, "tag");
  }

  lemma TagDefaultBinding()
    ensures LookupIn(NoteOver(true).Mro(), "_tag") == Some(PlainAttr(PyStr("dflt")))
  {
    NoteLevels(true);
    assert TaggedWithDefaultDecl.namespace[1] == ("_tag", PlainAttr(PyStr("dflt")));
  }

  lemma TagNotAField(withDefault: bool)
    ensures "tag" !in Keys(MergedFields(NoteOver(withDefault)))
  {
    NoteFieldTable(withDefault);
    assert Keys(MergedFields(NoteOver(withDefault))) == ["text"];
  }

  lemma NoteFieldTable(withDefault: bool)
    ensures MergedFields(NoteOver(withDefault)) == [("text", TextField)]
  {
    var own := [("text", TextField)];
    NoteOwnFields();
    NoteFieldLevels(withDefault);
    FlattenFour(own);
    FromPairsOfDict(own);
  }

  lemma NoteOwnFields()
    ensures OwnFields(NoteDecl) == [("text", TextField)]
  {
    FieldEntriesCons(NoteDecl.namespace[0], []);
    assert NoteDecl.namespace == [NoteDecl.namespace[0]] + [];
  }

  lemma NoteFieldLevels(withDefault: bool)
    ensures FieldTables(NoteOver(withDefault)) == [OwnFields(NoteDecl), [], [], []]
  {
    assert NoteOver(withDefault).Mro() == [NoteDecl, RecordBase, Tagged(withDefault), ObjectClass];
    assert OwnFields(RecordBase) == [];
  }

  lemma NoteLevels(withDefault: bool)
    ensures NoteOver(withDefault).Mro() == [NoteDecl, RecordBase, Tagged(withDefault), ObjectClass]
    ensures Keys(NoteDecl.namespace) == ["text"] && Keys(RecordBase.namespace) == [] && Keys(ObjectClass.namespace) == []
    ensures Tagged(withDefault).namespace[0] == ("tag", FieldAttr(TagField))
    ensures Keys(Tagged(withDefault).namespace) == if withDefault then ["tag", "_tag"] else ["tag"]
    ensures Keys(Tagged(withDefault).annotations) == ["tag"]
  {
  }

  lemma TagIsDescriptor(withDefault: bool)
    ensures IsFieldDescriptor(NoteOver(withDefault), "tag")
  {
    NoteLevels(withDefault);
    var mro := NoteOver(withDefault).Mro();
    assert mro[2] == Tagged(withDefault);
    assert LookupIn(mro, "tag") == Some(FieldAttr(TagField));
  }

  /** The one argument of `Note(text="a")` passes its checks, and `_text` is no descriptor. */
  lemma NoteTextIsValid(withDefault: bool)
    ensures ArgError(NoteOver(withDefault), "text", PyStr("a"), IsInstance).None?
  {
    NoteFieldTable(withDefault);
    assert Get(MergedFields(NoteOver(withDefault)), "text") == Some(TextField);
    NoteTextAnnotation(withDefault);
    TextBackingNameFree(withDefault);
  }

  lemma NoteTextAnnotation(withDefault: bool)
    ensures Get(MergedAnnotations(NoteOver(withDefault)), "text") == Some(StrType)
  {
    NoteLevels(withDefault);
    assert Keys(NoteDecl.annotations) == ["text"];
    assert Get(NoteDecl.annotations, "text") == Some(StrType);
    AnnotationDeclaredLast(NoteOver(withDefault), "text", 0);
  }

  lemma TextBackingNameFree(withDefault: bool)
    ensures !IsFieldDescriptor(NoteOver(withDefault), PrivateName("text"))
  {
    NoteLevels(withDefault);
    assert PrivateName("text") == "_text";
    assert LookupIn(NoteOver(withDefault).Mro(), "_text").None?;
  }

  // Proof plumbing: string, sequence and key-set identities about literals that the
  // lemmas above need spelled out. They model nothing of the program.

  lemma NameBlock()
    ensures Block("The name", "name", "'JAMES'") == "  # The name\n" + "  name='JAMES'\n"
  {
  }

  lemma AgeBlock()
    ensures Block("The person's age", "age", "34") == "  # The person's age\n" + "  age=34\n"
  {
  }

  lemma IncomeBlock()
    ensures Block("The person's income", "income", "24000.0") == "  # The person's income\n" + "  income=24000.0\n"
  {
  }

  lemma BarkBlock()
    ensures Block("Sound of bark", "bark", "'ARF'") == "  # Sound of bark\n" + "  bark='ARF'\n"
  {
  }

  lemma RegroupLines(head: string, a: string, b: string, c: string, d: string, e: string, f: string)
    ensures head + (a + b) + (c + d) + (e + f) + ")" == head + a + b + c + d + e + f + ")"
  {
  }

  lemma LayoutOfThree(className: string, b0: string, b1: string, b2: string)
    ensures Layout(className, [b0, b1, b2]) == className + "(\n" + b0 + b1 + b2 + ")"
  {
    assert [b0, b1, b2][1..] == [b1, b2] && [b1, b2][1..] == [b2] && [b2][1..] == [];
    assert Concat([b2]) == b2 + "" == b2;
    assert Concat([b0, b1, b2]) == b0 + (b1 + b2) == b0 + b1 + b2;
    assert className + "(\n" + (b0 + b1 + b2) + ")" == className + "(\n" + b0 + b1 + b2 + ")";
  }

  lemma LayoutOfOne(className: string, b: string)
    ensures Layout(className, [b]) == className + "(\n" + b + ")"
  {
    assert [b][1..] == [];
    assert Concat([b]) == b + "" == b;
  }

  lemma FourHold<X>(s: seq<X>, ok: X -> bool, a0: X, a1: X, a2: X, a3: X)
    requires s == [a0, a1, a2, a3] && ok(a0) && ok(a1) && ok(a2) && ok(a3)
    ensures forall j :: 0 <= j < |s| ==> ok(s[j])
  {
    forall j | 0 <= j < |s| ensures ok(s[j]) {
      assert j == 0 || j == 1 || j == 2 || j == 3;
    }
  }

  lemma TagBackingName()
    ensures PrivateName("tag") == "_tag"
  {
  }

  lemma KeySetOfOne<V>(d: seq<(string, V)>)
    requires |d| == 1
    ensures KeySet(d) == {d[0].0}
  {
    assert Keys(d) == [d[0].0];
  }

  lemma KeySetOfFour<V>(d: seq<(string, V)>)
    requires |d| == 4
    ensures KeySet(d) == {d[0].0, d[1].0, d[2].0, d[3].0}
  {
    assert Keys(d) == [d[0].0, d[1].0, d[2].0, d[3].0];
  }

  lemma FlattenThree<V>(d: seq<(string, V)>)
    ensures Flatten([d, [], []]) == d
  {
    var a, b, c := [d], [d, []], [d, [], []];
    assert a[..0] == [];
    assert Flatten(a) == d;
    assert b[..1] == a;
    assert Flatten(b) == d;
    assert c[..2] == b;
  }

  lemma FlattenFive<V>(a: seq<(string, V)>, b: seq<(string, V)>, c: seq<(string, V)>)
    ensures Flatten([a, b, c, [], []]) == a + b + c
  {
    var s1, s2, s3, s4, s5 := [a], [a, b], [a, b, c], [a, b, c, []], [a, b, c, [], []];
    assert s1[..0] == [] && s2[..1] == s1 && s3[..2] == s2 && s4[..3] == s3 && s5[..4] == s4;
    assert Flatten(s1) == a;
    assert Flatten(s2) == a + b;
    assert Flatten(s3) == a + b + c;
    assert a + b + c + [] == a + b + c;
    assert Flatten(s4) == a + b + c;
  }

  lemma FlattenFour<V>(d: seq<(string, V)>)
    ensures Flatten([d, [], [], []]) == d
  {
    var c := [d, [], [], []];
    FlattenThree(d);
    assert c[..3] == [d, [], []];
  }

  lemma FieldEntriesCons<V>(x: (string, Attr<V>), rest: seq<(string, Attr<V>)>)
    ensures FieldEntries([x] + rest) == (if x.1.FieldAttr? then [(x.0, x.1.field)] else []) + FieldEntries(rest)
  {
    assert ([x] + rest)[1..] == rest;
  }
}

=== FILE: rendering.dfy ===
/**
  The synthesised `__str__`: the class name and an opening parenthesis, then one
  block per field declared directly on the instance's own class (its `_fields`, not
  the inherited ones), each block a `# label` comment line followed by
  `name=repr(value)`, then a closing parenthesis. `repr` is a parameter.
 */
module Rendering {
  import opened Wrappers
  import opened Dicts
  import opened Schema
  import opened Errors
  import opened Attributes
  import opened Construction

  /** One field's block, two-space indented. */
  function Block(caption: string, name: string, shown: string): string
  {
    "  # " + caption + "\n  " + name + "=" + shown + "\n"
  }

  /** `"".join(ss)`. */
  function Concat(ss: seq<string>): string
  {
    if ss == [] then "" else ss[0] + Concat(ss[1..])
  }

  /** The whole rendering around the given blocks. */
  function Layout(className: string, blocks: seq<string>): string
  {
    className + "(\n" + Concat(blocks) + ")"
  }

  /** `getattr(self, name)` for each field of `fs`, in order. */
  function Reads<V, T>(inst: Instance<V, T>, fs: seq<(string, Field<V>)>): (rs: seq<Result<V, Error>>)
    ensures |rs| == |fs|
    ensures forall i :: 0 <= i < |fs| ==> rs[i] == GetAttr(inst, fs[i].0)
  {
    seq(|fs|, i requires 0 <= i < |fs| => GetAttr(inst, fs[i].0))
  }

  /**
    The loop of `__str__` over fields `fs`, given what reading each of them gives:
    one block per field, and the first failed read aborts with its error.
   */
  function Blocks<V>(fs: seq<(string, Field<V>)>, rs: seq<Result<V, Error>>, repr: V -> string): (r: Result<seq<string>, Error>)
    requires |rs| == |fs|
    ensures r.Ok? ==> |r.value| == |fs|
  {
    if fs == [] then Ok([])
    else
      match rs[0]
      case Err(e) => Err(e)
      case Ok(v) =>
        match Blocks(fs[1..], rs[1..], repr)
        case Err(e) => Err(e)
        case Ok(rest) => Ok([Block(fs[0].1.labelText, fs[0].0, repr(v))] + rest)
  }

  /** The blocks of the fields `fs`, in order, each showing the value the instance reads for it. */
  function RenderBlocks<V, T>(inst: Instance<V, T>, fs: seq<(string, Field<V>)>, repr: V -> string): Result<seq<string>, Error>
  {
    Blocks(fs, Reads(inst, fs), repr)
  }

  /**
    The blocks come out iff every read succeeds; block `i` then shows field `i`'s
    label and the `repr` of the value read for it.
   */
  lemma {:induction false} BlocksContents<V>(fs: seq<(string, Field<V>)>, rs: seq<Result<V, Error>>, repr: V -> string)
    requires |rs| == |fs|
    ensures Blocks(fs, rs, repr).Ok? <==> forall i :: 0 <= i < |rs| ==> rs[i].Ok?
    ensures Blocks(fs, rs, repr).Ok? ==>
              forall i :: 0 <= i < |fs| ==> Blocks(fs, rs, repr).value[i] == Block(fs[i].1.labelText, fs[i].0, repr(rs[i].value))
  {
    if fs != [] {
      BlocksContents(fs[1..], rs[1..], repr);
      assert forall i :: 1 <= i < |rs| ==> rs[1..][i - 1] == rs[i];
      assert forall i :: 1 <= i < |fs| ==> fs[1..][i - 1] == fs[i];
    }
  }

  /** Failing blocks fail with the error of the first failed read. */
  lemma {:induction false} BlocksFailure<V>(fs: seq<(string, Field<V>)>, rs: seq<Result<V, Error>>, repr: V -> string)
    requires |rs| == |fs| && Blocks(fs, rs, repr).Err?
    ensures exists i :: 0 <= i < |rs| && rs[i] == Err(Blocks(fs, rs, repr).error) && forall j :: 0 <= j < i ==> rs[j].Ok?
  {
    if rs[0].Ok? {
      BlocksFailure(fs[1..], rs[1..], repr);
      var i :| 0 <= i < |rs[1..]| && rs[1..][i] == Err(Blocks(fs[1..], rs[1..], repr).error)
                && forall j :: 0 <= j < i ==> rs[1..][j].Ok?;
      assert rs[i + 1] == rs[1..][i];
      assert forall j :: 1 <= j < i + 1 ==> rs[j] == rs[1..][j - 1];
    }
  }

  /**
    `str(inst)`: it succeeds iff every field of the class's own `_fields` can be
    read, and then it opens with the class name and `(` on a line of its own and
    closes with `)`. Otherwise it fails as the first unreadable field does.
   */
  function Render<V, T>(inst: Instance<V, T>, repr: V -> string): (r: Result<string, Error>)
    ensures var fs := OwnFields(inst.cls.decl);
            r.Ok? <==> forall i :: 0 <= i < |fs| ==> GetAttr(inst, fs[i].0).Ok?
    ensures var fs := OwnFields(inst.cls.decl);
            r.Err? ==> exists i :: 0 <= i < |fs| && GetAttr(inst, fs[i].0) == Err(r.error)
                                   && forall j :: 0 <= j < i ==> GetAttr(inst, fs[j].0).Ok?
    ensures var name := inst.cls.decl.name;
            r.Ok? ==> |r.value| >= |name| + 3 && r.value[..|name| + 2] == name + "(\n" && r.value[|r.value| - 1] == ')'
  {
    var fs := OwnFields(inst.cls.decl);
    var rs := Reads(inst, fs);
    BlocksContents(fs, rs, repr);
    match Blocks(fs, rs, repr)
    case Err(e) =>
      BlocksFailure(fs, rs, repr);
      Err(e)
    case Ok(blocks) =>
      var s := Layout(inst.cls.decl.name, blocks);
      assert s == (inst.cls.decl.name + "(\n") + (Concat(blocks) + ")");
      Ok(s)
  }

  /** The blocks of the fields `fs` showing the values supplied for them in `kwargs`. */
  function SuppliedBlocks<V>(fs: seq<(string, Field<V>)>, kwargs: Dict<V>, repr: V -> string): seq<string>
  {
    if fs == [] then []
    else
      var rest := SuppliedBlocks(fs[1..], kwargs, repr);
      match Get(kwargs, fs[0].0)
      case Some(v) => [Block(fs[0].1.labelText, fs[0].0, repr(v))] + rest
      case None => rest
  }

  /** A field declared on the class itself is in its field table, and is the descriptor its instances see. */
  lemma OwnFieldIsDescriptor<V, T>(c: RecordClass<V, T>, n: string)
    requires n in Keys(OwnFields(c.decl))
    ensures n in Keys(MergedFields(c)) && IsFieldDescriptor(c, n)
  {
    assert c.Mro()[0] == c.decl;
    MergedFieldsLookup(c, n);
  }

  /** Blocks over reads that all give the supplied values are the supplied blocks. */
  lemma {:induction false} BlocksOfSupplied<V>(fs: seq<(string, Field<V>)>, rs: seq<Result<V, Error>>, kwargs: Dict<V>, repr: V -> string)
    requires |rs| == |fs|
    requires forall i :: 0 <= i < |fs| ==> Get(kwargs, fs[i].0).Some? && rs[i] == Ok(Get(kwargs, fs[i].0).value)
    ensures |SuppliedBlocks(fs, kwargs, repr)| == |fs|
    ensures Blocks(fs, rs, repr) == Ok(SuppliedBlocks(fs, kwargs, repr))
  {
    if fs != [] {
      assert forall i :: 1 <= i < |fs| ==> fs[1..][i - 1] == fs[i] && rs[1..][i - 1] == rs[i];
      BlocksOfSupplied(fs[1..], rs[1..], kwargs, repr);
    }
  }

  /**
    On a constructed instance, the blocks of fields of the class's own body show
    each field's label and the `repr` of the value supplied for it, in order.
   */
  lemma RenderBlocksOfConstructed<V, T>(c: RecordClass<V, T>, kwargs: Dict<V>, isInstance: (V, T) -> bool,
                                        fs: seq<(string, Field<V>)>, repr: V -> string)
    requires Construct(c, kwargs, isInstance).Ok?
    requires forall i :: 0 <= i < |fs| ==> fs[i].0 in Keys(OwnFields(c.decl))
    ensures |SuppliedBlocks(fs, kwargs, repr)| == |fs|
    ensures RenderBlocks(Construct(c, kwargs, isInstance).value, fs, repr) == Ok(SuppliedBlocks(fs, kwargs, repr))
  {
    var inst := Construct(c, kwargs, isInstance).value;
    var rs := Reads(inst, fs);
    forall i | 0 <= i < |fs| ensures Get(kwargs, fs[i].0).Some? && rs[i] == Ok(Get(kwargs, fs[i].0).value) {
      OwnFieldIsDescriptor(c, fs[i].0);
      ReadBack(c, kwargs, isInstance, fs[i].0);
    }
    BlocksOfSupplied(fs, rs, kwargs, repr);
  }

  /**
    A constructed record renders as its class name, then one block per field of the
    class's own body, in body order, showing the label and the supplied value, then
    a closing parenthesis.
   */
  lemma RenderOfConstructed<V, T>(c: RecordClass<V, T>, kwargs: Dict<V>, isInstance: (V, T) -> bool, repr: V -> string)
    requires Construct(c, kwargs, isInstance).Ok?
    ensures |SuppliedBlocks(OwnFields(c.decl), kwargs, repr)| == |OwnFields(c.decl)|
    ensures Render(Construct(c, kwargs, isInstance).value, repr)
            == Ok(Layout(c.decl.name, SuppliedBlocks(OwnFields(c.decl), kwargs, repr)))
  {
    var fs := OwnFields(c.decl);
    assert forall i :: 0 <= i < |fs| ==> Keys(fs)[i] == fs[i].0;
    RenderBlocksOfConstructed(c, kwargs, isInstance, fs, repr);
  }
}

=== FILE: schema.dfy ===
/**
  Record classes as the metaclass sees them: each class body is a namespace of
  attributes, some of which are `Field` declarations, plus a table of type
  annotations. A record class is its method resolution order (MRO), the class
  itself first and the most ancestral class last.
 */
module Schema {
  import opened Wrappers
  import opened Dicts

  /** A `Field` declaration: a documentation label and an optional precondition on the value. */
  datatype Field<!V> = Field(labelText: string, precondition: Option<V -> bool>)

  /** A class-body binding: a field declaration, or any other value (docstring, constant, method). */
  datatype Attr<!V> = FieldAttr(field: Field<V>) | PlainAttr(value: V)

  /**
    One class as declared: its name, the namespace of its body, its own annotations,
    and whether `RecordMeta` made it (and so gave it a `_fields` table). A plain
    class, such as `object` or a mixin, has no `_fields`.
   */
  datatype ClassDef<!V, T> = ClassDef(name: string, namespace: Dict<Attr<V>>, annotations: Dict<T>, isRecord: bool)

  /** A class with the rest of its MRO: the class itself first, the most ancestral class last. */
  datatype Lineage<!V, T> = Lineage(decl: ClassDef<V, T>, ancestors: seq<ClassDef<V, T>>)
  {
    function Mro(): seq<ClassDef<V, T>>
    {
      [decl] + ancestors
    }
  }

  /** A record class: one that `RecordMeta` made, whatever its ancestors are. */
  type RecordClass<!V, T> = c: Lineage<V, T> | c.decl.isRecord
    witness Lineage(ClassDef("", [], [], true), [])

  /** The field declared by a namespace binding, if it is one. */
  function FieldOf<V>(a: Option<Attr<V>>): Option<Field<V>>
  {
    if a.Some? && a.value.FieldAttr? then Some(a.value.field) else None
  }

  /** The `Field` bindings of a namespace, in body order. */
  function FieldEntries<V>(ns: seq<(string, Attr<V>)>): (r: seq<(string, Field<V>)>)
    ensures forall n :: n in Keys(r) ==> n in Keys(ns)
    ensures DistinctKeys(ns) ==> DistinctKeys(r) && forall n :: Get(r, n) == FieldOf(Get(ns, n))
  {
    if ns == [] then []
    else
      var rest := FieldEntries(ns[1..]);
      assert ns == [ns[0]] + ns[1..];
      GetCons(ns[0], ns[1..]);
      if ns[0].1.FieldAttr? then
        var r := [(ns[0].0, ns[0].1.field)] + rest;
        GetCons(r[0], rest);
        r
      else
        rest
  }

  /** The `Field` bindings of a namespace keep the order the namespace gives their names. */
  lemma {:induction false} FieldEntriesOrder<V>(ns: seq<(string, Attr<V>)>)
    requires DistinctKeys(ns)
    ensures OrderedBy(FieldEntries(ns), Keys(ns))
  {
    if ns != [] {
      var rest := FieldEntries(ns[1..]);
      GetCons(ns[0], ns[1..]);
      assert [ns[0]] + ns[1..] == ns;
      FieldEntriesOrder(ns[1..]);
      if ns[0].1.FieldAttr? {
        OrderedCons(ns[0].0, Keys(ns[1..]), (ns[0].0, ns[0].1.field), rest);
      } else {
        OrderedShift(ns[0].0, Keys(ns[1..]), rest);
      }
    }
  }

  /** `_fields` of a class: exactly the `Field` bindings of its own body, each name mapped to its own `Field`. */
  function OwnFields<V, T>(c: ClassDef<V, T>): (r: Dict<Field<V>>)
    ensures forall n :: Get(r, n) == FieldOf(Get(c.namespace, n))
  {
    FieldEntries(c.namespace)
  }

  /** `_fields` lists the class's fields in the order its body declares them. */
  lemma OwnFieldsOrder<V, T>(c: ClassDef<V, T>)
    ensures OrderedBy(OwnFields(c), Keys(c.namespace))
  {
    FieldEntriesOrder(c.namespace);
  }

  /** `getattr(cls, "_fields", {})`: a record class's own `_fields`, and nothing for a plain class. */
  function FieldsOf<V, T>(cd: ClassDef<V, T>): Dict<Field<V>>
  {
    if cd.isRecord then OwnFields(cd) else []
  }

  /** The `_fields` table of every class along the MRO, most-derived first. */
  function FieldTables<V, T>(c: RecordClass<V, T>): seq<Dict<Field<V>>>
  {
    var mro := c.Mro();
    seq(|mro|, i requires 0 <= i < |mro| => FieldsOf(mro[i]))
  }

  /** The `__annotations__` table of every class along the MRO, most-derived first. */
  function AnnotationTables<V, T>(c: RecordClass<V, T>): seq<Dict<T>>
  {
    var mro := c.Mro();
    seq(|mro|, i requires 0 <= i < |mro| => mro[i].annotations)
  }

  /** `cls_fields`: every class's own fields merged along the MRO. */
  function MergedFields<V, T>(c: RecordClass<V, T>): Dict<Field<V>>
  {
    Merge(FieldTables(c))
  }

  /** `annotations`: every class's own annotations merged along the MRO. */
  function MergedAnnotations<V, T>(c: RecordClass<V, T>): Dict<T>
  {
    Merge(AnnotationTables(c))
  }

  /**
    The field table of a record class is the union of the fields declared directly
    on each record class of its MRO; a plain class contributes nothing, even when its
    body binds `Field`s. A name declared on several record classes takes the
    declaration of the one furthest along the MRO.
   */
  lemma MergedFieldsLookup<V, T>(c: RecordClass<V, T>, n: string)
    ensures n in Keys(MergedFields(c)) <==>
              exists i :: 0 <= i < |c.Mro()| && c.Mro()[i].isRecord && n in Keys(OwnFields(c.Mro()[i]))
    ensures forall i :: 0 <= i < |c.Mro()| && c.Mro()[i].isRecord && n in Keys(OwnFields(c.Mro()[i]))
                        && (forall j :: i < j < |c.Mro()| && c.Mro()[j].isRecord ==> n !in Keys(OwnFields(c.Mro()[j])))
              ==> Get(MergedFields(c), n) == Get(OwnFields(c.Mro()[i]), n)
  {
    var mro, ts := c.Mro(), FieldTables(c);
    assert |ts| == |mro|;
    assert forall i :: 0 <= i < |ts| ==> ts[i] == FieldsOf(mro[i]);
    MergeKeys(ts, n);
    forall i | 0 <= i < |mro| && mro[i].isRecord && n in Keys(OwnFields(mro[i]))
               && (forall j :: i < j < |mro| && mro[j].isRecord ==> n !in Keys(OwnFields(mro[j])))
      ensures Get(MergedFields(c), n) == Get(OwnFields(mro[i]), n)
    {
      forall j | i < j < |ts| ensures n !in Keys(ts[j]) {
        assert ts[j] == FieldsOf(mro[j]);
      }
      MergeLastWins(ts, n, i);
    }
  }

  /** The annotation table is merged the same way as the field table. */
  lemma MergedAnnotationsLookup<V, T>(c: RecordClass<V, T>, n: string)
    ensures n in Keys(MergedAnnotations(c)) <==> exists i :: 0 <= i < |c.Mro()| && n in Keys(c.Mro()[i].annotations)
    ensures forall i :: 0 <= i < |c.Mro()| && n in Keys(c.Mro()[i].annotations)
                        && (forall j :: i < j < |c.Mro()| ==> n !in Keys(c.Mro()[j].annotations))
              ==> Get(MergedAnnotations(c), n) == Get(c.Mro()[i].annotations, n)
  {
    var mro, ts := c.Mro(), AnnotationTables(c);
    assert |ts| == |mro|;
    assert forall i :: 0 <= i < |ts| ==> ts[i] == mro[i].annotations;
    MergeKeys(ts, n);
    forall i | 0 <= i < |mro| && n in Keys(mro[i].annotations)
               && (forall j :: i < j < |mro| ==> n !in Keys(mro[j].annotations))
      ensures Get(MergedAnnotations(c), n) == Get(mro[i].annotations, n)
    {
      MergeLastWins(ts, n, i);
    }
  }

  /**
    The field table lists each name at the position of its first declaration in the
    walk over the MRO (most-derived class first, each body in order).
   */
  lemma MergedFieldsOrder<V, T>(c: RecordClass<V, T>)
    ensures OrderedBy(MergedFields(c), Keys(Flatten(FieldTables(c))))
  {
    assert MergedFields(c) == FromPairs(Flatten(FieldTables(c)));
    FromPairsOrder(Flatten(FieldTables(c)));
  }

  /** Class attribute lookup: the binding of `n` in the first class along `mro` whose body binds it. */
  function LookupIn<V, T>(mro: seq<ClassDef<V, T>>, n: string): (r: Option<Attr<V>>)
    ensures r.None? <==> forall i :: 0 <= i < |mro| ==> n !in Keys(mro[i].namespace)
    ensures forall i :: 0 <= i < |mro| && n in Keys(mro[i].namespace)
                        && (forall j :: 0 <= j < i ==> n !in Keys(mro[j].namespace))
              ==> r == Get(mro[i].namespace, n)
  {
    if mro == [] then None
    else
      assert forall i :: 1 <= i < |mro| ==> mro[1..][i - 1] == mro[i];
      match Get(mro[0].namespace, n)
      case Some(a) =>
        assert n in Keys(mro[0].namespace);
        Some(a)
      case None =>
        var r := LookupIn(mro[1..], n);
        assert forall i :: 0 <= i < |mro| && n in Keys(mro[i].namespace)
                           && (forall j :: 0 <= j < i ==> n !in Keys(mro[j].namespace))
                 ==> 1 <= i && (forall j :: 0 <= j < i - 1 ==> n !in Keys(mro[1..][j].namespace));
        r
  }

  /** `n` resolves, on the class, to a `Field` descriptor (which intercepts reads and writes). */
  predicate IsFieldDescriptor<V, T>(c: RecordClass<V, T>, n: string)
  {
    FieldOf(LookupIn(c.Mro(), n)).Some?
  }

  /**
    A name that resolves to a field descriptor bound by a record class is in the
    field table. A descriptor bound by a plain class (a mixin) need not be.
   */
  lemma DescriptorIsField<V, T>(c: RecordClass<V, T>, n: string)
    requires IsFieldDescriptor(c, n)
    ensures forall i :: 0 <= i < |c.Mro()| && n in Keys(c.Mro()[i].namespace)
                        && (forall j :: 0 <= j < i ==> n !in Keys(c.Mro()[j].namespace))
                        && c.Mro()[i].isRecord
              ==> n in Keys(MergedFields(c))
  {
    var mro := c.Mro();
    var k :| 0 <= k < |mro| && n in Keys(mro[k].namespace);
    var i := FirstBinder(mro, n, k);
    assert Get(OwnFields(mro[i]), n).Some?;
    MergedFieldsLookup(c, n);
  }

  /**
    A name of the field table is bound on the class. That is the new fact; the
    other two clauses then follow from the contract of `LookupIn` and spell out
    what it means here: the name resolves to a field descriptor exactly when the
    first class along the MRO that binds it binds it to a `Field`, and a plain
    value bound there hides the descriptor.
   */
  lemma FieldIsDescriptor<V, T>(c: RecordClass<V, T>, n: string)
    requires n in Keys(MergedFields(c))
    ensures LookupIn(c.Mro(), n).Some?
    ensures !IsFieldDescriptor(c, n) ==> LookupIn(c.Mro(), n).value.PlainAttr?
    ensures forall i :: 0 <= i < |c.Mro()| && n in Keys(c.Mro()[i].namespace)
                        && (forall j :: 0 <= j < i ==> n !in Keys(c.Mro()[j].namespace))
              ==> (IsFieldDescriptor(c, n) <==> FieldOf(Get(c.Mro()[i].namespace, n)).Some?)
  {
    var k := DeclaringClass(c, n);
    assert n in Keys(c.Mro()[k].namespace);
  }

  /** A class along the MRO whose body declares a given name of the field table. */
  lemma DeclaringClass<V, T>(c: RecordClass<V, T>, n: string) returns (k: nat)
    requires n in Keys(MergedFields(c))
    ensures k < |c.Mro()| && n in Keys(c.Mro()[k].namespace)
  {
    MergedFieldsLookup(c, n);
    var mro := c.Mro();
    k :| 0 <= k < |mro| && mro[k].isRecord && n in Keys(OwnFields(mro[k]));
    assert Get(OwnFields(mro[k]), n).Some?;
    assert Get(mro[k].namespace, n).Some?;
  }

  /** A name bound by the `k`-th class along the MRO has a first binder, at or before `k`. */
  lemma FirstBinder<V, T>(mro: seq<ClassDef<V, T>>, n: string, k: nat) returns (i: nat)
    requires k < |mro| && n in Keys(mro[k].namespace)
    ensures i <= k && n in Keys(mro[i].namespace)
    ensures forall j :: 0 <= j < i ==> n !in Keys(mro[j].namespace)
  {
    i := 0;
    while n !in Keys(mro[i].namespace)
      invariant i <= k
      invariant forall j :: 0 <= j < i ==> n !in Keys(mro[j].namespace)
      decreases k - i
    {
      i := i + 1;
    }
  }
}

=== FILE: wrappers.dfy ===
/** Option and Result, the two failure-carrying datatypes the model returns. */
module Wrappers {

  /** An optional value: a dictionary lookup that may miss, a precondition that may be absent. */
  datatype Option<+T> = None | Some(value: T)

  /** The outcome of an operation that either produces a value or raises. */
  datatype Result<+R, +E> = Ok(value: R) | Err(error: E)
}
